=== FILE: README.md ===
# GotBeat core in Dafny

GotBeat turns an MP3 into a rhythm-game chart and then plays that chart in a
p5.js sketch. This project models the two deterministic parts of it and proves
properties of them.

The first part is the offline chart generator, `analyze-mp3.js`. It does five
things:
- an energy-based beat detector over quarter-second windows, with a rolling
  history of 43 energies and a 0.3 s refractory gap;
- the tempo estimate `round(60 / mean interval)`;
- 50 ms pitch chunks, with the YIN estimator given as a function parameter;
- the note synthesizer, which names each beat after the pitch estimate nearest
  in time and ends each note at the next beat;
- the MIDI-number to note-name table, with JavaScript's truncating `%`.

The second part is the game rules of `public/sketch.js`:
- the one-note-per-second difficulty filter;
- the launch queue;
- the ball latches (`launched`, `hit`, `missed`) and the off-screen miss penalty;
- the box and gold-circle tests;
- tap resolution and the four score counters;
- the start-button state machine. It is driven by three events: the song
  configuration arriving, a press, and a frame.

Everything is modelled with immutable datatypes and pure functions over `real`
and `int`. The clock (`millis()`), the frame time (`deltaTime`), the decoded
samples, the pitch estimator and `frequencyToMidiNote` arrive as parameters.

Modules, in dependency order:

| Module | Models |
|---|---|
| `Wrappers` | `Option` and `Result` |
| `Numeric` | `Math.round`, JavaScript `%`, sums and means, real-arithmetic lemmas |
| `Sequences` | subsequences, consecutive differences |
| `Framing` | `slice(i, i + size)` framing and sample times |
| `Records` | beats, pitch samples, chart notes |
| `BeatDetector` | `calculateEnergy`, `detectBeatsAndBPM` |
| `Tempo` | `calculateBPM` |
| `PitchExtractor` | `detectPitches` |
| `NoteSynthesizer` | `generateGameNotes`, `midiNoteToNoteName` |
| `SongData` | `analyzeMp3` without I/O, and the JSON path rewrite |
| `Difficulty` | `setDifficulty` |
| `Entities` | `Ball`, `Box`, canvas geometry |
| `Scoring` | the score counters and their deltas |
| `Timing` | `updateGame` |
| `Hits` | `checkBoxInteraction` |
| `Session` | `gotSongConfig`, `mousePressed`/`touchStarted`, `startGame`, `draw` |

Two behaviours of the code are worth stating up front:
- A note number is mapped to a name with JavaScript's truncating `%`, so a
  negative number other than a multiple of 12 gives `undefined`. A negative
  multiple of 12 gives `-0`, and `notes[-0]` is `"C"`.
  `NoteSynthesizer.MidiNoteToNoteName` states exactly this.
- No beats give an empty chart. A tempo of 0 (exactly one beat, or beats whose
  mean interval exceeds two minutes) makes the last note's end `Infinity`,
  which the song-data file holds as `null`. The model writes `None` for that
  end time and duration (`SongData.OpenEndedChart`).

## Model

| member | source | states |
|---|---|---|
| `BeatDetector.BufferSize` | analyze-mp3.js:100 | a window is floor(sampleRate / 4) samples, a quarter of a second |
| `BeatDetector.Accepts` | analyze-mp3.js:123 | a window is a beat when its energy exceeds 1.15 times the history average and it starts more than 60 / maxBPM = 0.3 s after the last beat |
| `BeatDetector.Step` | analyze-mp3.js:112-126 | one iteration: push the window's energy (dropping the oldest past 43), then, if the window is accepted against the new average, append a beat at its start time and make that the last beat time |
| `BeatDetector.WindowEnergy` | analyze-mp3.js:112-113 | window j's energy is that of the slice of up to bufferSize samples from sample j·bufferSize |
| `BeatDetector.WindowTime` | analyze-mp3.js:121 | window j starts at j·bufferSize / sampleRate seconds |
| `BeatDetector.Scan` | analyze-mp3.js:107-127 | the loop from window j on: it stops once the window would start at or past the end of the buffer, otherwise it steps on window j and continues with j + 1 |
| `BeatDetector.DetectBeats` | analyze-mp3.js:103-127 | the beats of the scan from window 0 with an empty history, last beat time -1 and no beats |
| `BeatDetector.Energy` | analyze-mp3.js:135-137 | a window's energy is non-negative, zero exactly when every sample is zero, and at most 1 for samples in [-1, 1] |
| `BeatDetector.PushEnergy` | analyze-mp3.js:114-118 | push-then-shift ends with the new energy, and from a history of at most 43 keeps the last min(k+1, 43) energies in order |
| `BeatDetector.WindowTimeStep` | analyze-mp3.js:100-121 | consecutive windows start strictly later, at most 0.25 s apart |
| `BeatDetector.AcceptedWindowIsLoud` | analyze-mp3.js:114-123 | an accepted window has strictly positive energy, and some earlier window is in the history |
| `BeatDetector.EnergiesAt` | analyze-mp3.js:111-113 | entry k of the energies of windows lo up to hi is the energy of window lo + k |
| `BeatDetector.EnergiesDropFirst` | analyze-mp3.js:116-118 | dropping the oldest energy leaves the energies of the windows from the next one on |
| `BeatDetector.StepHistory` | analyze-mp3.js:113-118 | after window j the history holds the energies of the last min(j+1, 43) windows, oldest first |
| `BeatDetector.AppendSpaced` | analyze-mp3.js:123-125 | a beat more than the gap after the last of spaced beats keeps all of them spaced |
| `BeatDetector.StepBeats` | analyze-mp3.js:120-126 | one step keeps the beats spaced, on positive-energy windows, before the next window, and `lastBeatTime` equal to the last beat (or -1) |
| `BeatDetector.StepInvariant` | analyze-mp3.js:112-126 | one loop iteration keeps both the history invariant and the beats invariant |
| `BeatDetector.ScanInvariant` | analyze-mp3.js:107-127 | the invariant holds when the loop ends |
| `BeatDetector.DetectedBeatsWellFormed` | analyze-mp3.js:107-127 | detected beats are more than 0.3 s after every earlier beat, and each starts a window other than the first with positive energy |
| `BeatDetector.FirstWindowNeverBeat` | analyze-mp3.js:105-124 | every beat time is strictly positive, because the first window's average is its own energy |
| `BeatDetector.AdjacentWindowsNotBothBeats` | analyze-mp3.js:100-123 | two adjacent windows are never both beats |
| `BeatDetector.LoopBodyIsStep` | analyze-mp3.js:112-126 | the statements of one loop iteration compute exactly one step of the recursive model on the window starting at i |
| `BeatDetector.Iteration` | analyze-mp3.js:112-126 | one pass of the loop body leaves the rest of the scan unchanged: the scan from the next window on the new variables equals the scan from this window on the old ones |
| `BeatDetector.BeatLoop` | analyze-mp3.js:103-127 | the loop, stepping i by the window size from 0, returns exactly the beats of the recursive model |
| `BeatDetector.DetectBeatsAndBpm` | analyze-mp3.js:93-133 | the beats returned are those of the recursive model, spaced and on the beat grid, with the tempo of `calculateBPM` |
| `Tempo.TelescopingSum` | analyze-mp3.js:142-147 | the sum of the beat intervals is the last beat time minus the first |
| `Tempo.CalculateBpm` | analyze-mp3.js:139-151 | 0 for fewer than two beats, otherwise round(60 (n-1) / (last - first)) |
| `Tempo.HalfSecondBeatsGive120` | analyze-mp3.js:139-151 | beats at 0, 0.5, 1.0 and 1.5 give 120 BPM |
| `Tempo.NonNegativeTempo` | analyze-mp3.js:139-151 | beats that end after they start never give a negative tempo |
| `Tempo.PositiveTempo` | analyze-mp3.js:147-148 | increasing beats with a mean interval of at most 120 s give a positive tempo |
| `Tempo.ZeroTempoWhenSlow` | analyze-mp3.js:147-148 | beats with a mean interval above 120 s give tempo 0 |
| `Tempo.ZeroTempoIffSlow` | analyze-mp3.js:139-151 | for beats that end after they start, the tempo is 0 exactly when the mean interval exceeds 120 s |
| `Framing.Frame` | analyze-mp3.js:112 | a frame is the slice from its start, non-empty, and at most the frame size (shorter at the end) |
| `PitchExtractor.ChunkSize` | analyze-mp3.js:159 | a chunk is floor(sampleRate / 20) samples, 50 ms |
| `PitchExtractor.Truthy` | analyze-mp3.js:166 | `if (pitch)`: an estimate counts when it is present and non-zero |
| `PitchExtractor.ChunkAt` | analyze-mp3.js:162 | chunk j is the slice of up to chunkSize samples from sample j·chunkSize |
| `PitchExtractor.ChunkTime` | analyze-mp3.js:163 | chunk j starts at j·chunkSize / sampleRate seconds |
| `PitchExtractor.PitchesFrom` | analyze-mp3.js:161-169 | the loop from chunk j on: nothing once the chunk would start at or past the end of the buffer, otherwise chunk j's `{time, pitch}` when its estimate is truthy, followed by the records of the later chunks |
| `PitchExtractor.DetectPitches` | analyze-mp3.js:153-172 | `detectPitches`: the records of the loop from chunk 0 |
| `PitchExtractor.ChunkTimeIncreasing` | analyze-mp3.js:159-163 | consecutive chunks start at strictly increasing times |
| `PitchExtractor.PitchesFromSound` | analyze-mp3.js:161-169 | everything the loop records is the truthy estimate of some chunk, stamped with that chunk's start time |
| `PitchExtractor.PitchesFromOrdered` | analyze-mp3.js:161-169 | the loop records in strictly increasing time order |
| `PitchExtractor.PitchesFromComplete` | analyze-mp3.js:161-169 | every chunk with a truthy estimate is recorded |
| `PitchExtractor.DetectPitchesCharacterized` | analyze-mp3.js:153-172 | `detectPitches` records exactly the chunks with a truthy estimate, with their times and estimates, in strictly increasing time order |
| `PitchExtractor.NoPitchesIffSilent` | analyze-mp3.js:161-171 | no pitch is recorded if and only if the estimator is falsy on every chunk |
| `Numeric.Sum` | analyze-mp3.js:120 | `reduce((sum, e) => sum + e, 0)`: the left-to-right sum from 0 |
| `Numeric.Mean` | analyze-mp3.js:120 | the sum divided by the length, for a non-empty sequence |
| `Numeric.Round` | analyze-mp3.js:148 | `Math.round` gives the integer r with x - 0.5 < r <= x + 0.5 |
| `Numeric.RoundHalfUp` | analyze-mp3.js:148 | halves round up |
| `Numeric.JsRemainder` | analyze-mp3.js:211 | the truncating remainder lies strictly between -b and b, takes the sign of the dividend, and differs from it by a multiple of b |
| `NoteSynthesizer.MidiNoteToNoteName` | analyze-mp3.js:209-212 | a note number of at least 0 gives `NOTES[m mod 12]`; a negative number gives a name exactly when it is a multiple of 12, and that name is "C" |
| `NoteSynthesizer.OctaveInvariant` | analyze-mp3.js:209-212 | note numbers of at least 0 that are 12 apart get the same name |
| `NoteSynthesizer.ConcertPitchNames` | analyze-mp3.js:209-212 | 69 and 81 are "A", and 60 is "C" |
| `NoteSynthesizer.ClosestIndex` | analyze-mp3.js:185-187 | the seedless `reduce` picks an estimate at minimal distance from the beat, strictly closer than every earlier one, so ties go to the earliest |
| `NoteSynthesizer.ClosestUnique` | analyze-mp3.js:185-187 | a uniquely closest estimate is the one chosen |
| `NoteSynthesizer.Closest` | analyze-mp3.js:185-187 | the estimate the seedless `reduce` returns for a beat time: the one at the chosen index |
| `NoteSynthesizer.NextBeatTime` | analyze-mp3.js:183 | the next beat's time, or for the last beat its time plus 60 / bpm, with no value at tempo 0 (`Infinity`) |
| `NoteSynthesizer.NoteFor` | analyze-mp3.js:181-198 | the note for beat i: named after the closest estimate's MIDI number, starting at the beat, ending at the next beat time, lasting the difference, velocity 100 |
| `NoteSynthesizer.GenerateNotes` | analyze-mp3.js:176-203 | fails exactly when there are beats and no estimates (the `reduce` throw); otherwise gives one note per beat |
| `NoteSynthesizer.GeneratedNote` | analyze-mp3.js:181-198 | note i starts at beat i, ends at the next beat (the last one 60/bpm later, or never at tempo 0), lasts the difference (no duration when it never ends), has velocity 100, and is named after the closest estimate |
| `NoteSynthesizer.OpenEndExactlyAtZeroTempo` | analyze-mp3.js:181-198 | only the last note can lack an end, it lacks one exactly when the tempo is 0, and a note has a duration exactly when it has an end |
| `NoteSynthesizer.NotesStartOnBeats` | analyze-mp3.js:192-196 | the chart's start times are the beat times, in beat order |
| `NoteSynthesizer.NoBeatsNoNotes` | analyze-mp3.js:179-202 | no beats give an empty chart, even with no estimates or tempo 0 |
| `NoteSynthesizer.NotesAbut` | analyze-mp3.js:183-198 | each note ends where the next starts, and the last lasts one beat period, or has no duration at tempo 0 |
| `NoteSynthesizer.NotesOrdered` | analyze-mp3.js:181-198 | increasing beats and a non-negative tempo give positive durations (where there is one) and increasing start times |
| `NoteSynthesizer.NotesNamedByNearestPitch` | analyze-mp3.js:185-190 | each note is named after an estimate that no other estimate is closer to the beat than |
| `NoteSynthesizer.SingleBeatAt120` | analyze-mp3.js:181-198 | one beat at 120 BPM gives a single note of 0.5 s |
| `SongData.DetectedBpm` | analyze-mp3.js:129 | the tempo `detectBeatsAndBPM` reports: `calculateBPM` of the detected beats |
| `SongData.Analyze` | analyze-mp3.js:15-52 | the pipeline fails exactly when there are beats but no pitch estimates; otherwise the record has the buffer's duration, the detected tempo, lead-ins of 2 s and one note per beat |
| `SongData.DetectedTempoNonNegative` | analyze-mp3.js:129-148 | the tempo of the detected beats is never negative |
| `SongData.AnalyzedNotes` | analyze-mp3.js:20-44 | a successful chart is the synthesizer's output for the detected beats, estimates and tempo, and the tempo is non-negative |
| `SongData.ChartOnBeats` | analyze-mp3.js:20-44 | chart notes start on positive-energy windows, more than 0.3 s after every earlier note |
| `SongData.ChartNotesAbut` | analyze-mp3.js:36-44 | chart notes that end have positive duration, and consecutive notes abut |
| `SongData.DetectedTempoZero` | analyze-mp3.js:139-151 | the detected tempo is 0 exactly when fewer than two beats are found or their mean interval exceeds 120 s |
| `SongData.OpenEndedChart` | analyze-mp3.js:20-44 | with beats and estimates a chart is written, and its last note has no end exactly when the tempo is 0 |
| `SongData.SingleBeatSongHasOpenEnd` | analyze-mp3.js:140-198 | a song with exactly one beat has tempo 0 and a single note with neither end nor duration |
| `SongData.SilentWindow` | analyze-mp3.js:112-113 | every window of a silent buffer has zero energy |
| `SongData.SilentSongHasEmptyChart` | analyze-mp3.js:107-151 | a silent buffer gives no beats, tempo 0 and an empty chart |
| `SongData.IndexOfFrom` | analyze-mp3.js:54 | the search finds the first match at or after the start position, or reports that there is none |
| `SongData.ReplaceFirst` | analyze-mp3.js:54 | a string-pattern `replace` with a replacement free of `$` splices the replacement in at the first match only, and leaves the string alone when there is no match |
| `SongData.SpliceFirst` | analyze-mp3.js:54 | in a + pat + b, with the pattern's first character absent from a, `replace` turns the string into a + rep + b |
| `SongData.ReplaceFirstUndo` | analyze-mp3.js:54 | replacing the pattern and then putting it back restores the string, when the replacement is found where the pattern was |
| `SongData.IndexOfIs` | analyze-mp3.js:54 | a match with no earlier match is the first occurrence |
| `SongData.IndexOfByFirstChar` | analyze-mp3.js:54 | a match preceded by no copy of the pattern's first character is the first occurrence |
| `SongData.ReplaceExtension` | analyze-mp3.js:54 | `.mp3` becomes `.json` in `public/mp3/go.mp3` |
| `SongData.ReplaceDirectory` | analyze-mp3.js:54 | the first `mp3` of `public/mp3/go.json` becomes `songdata` |
| `SongData.IndexOf` | analyze-mp3.js:54 | the first occurrence of the pattern from position 0 |
| `SongData.JsonPathFor` | analyze-mp3.js:54 | the song-data path: the first `.mp3` becomes `.json`, then the first `mp3` becomes `songdata` |
| `SongData.JsonPathExample` | analyze-mp3.js:54 | `public/mp3/go.mp3` maps to `public/songdata/go.json` |
| `SongData.JsonPathRenamesFirstMp3` | analyze-mp3.js:54 | a path `mp3` + d + `.mp3` with no dot in d maps to `songdata` + d + `.json`: for d = `x/public/mp3/go` the leading `mp3x` directory is renamed and `public/mp3` is kept |
| `Difficulty.Second` | public/sketch.js:370 | `Math.floor(note.startTime)`: the whole second a note starts in |
| `Difficulty.SetDifficulty` | public/sketch.js:364-378 | `setDifficulty`: the filter loop started with `lastNoteTime` -1; the level is only stored |
| `Difficulty.KeepFrom` | public/sketch.js:364-378 | the filter keeps an order-preserving subsequence whose whole seconds are above the starting `lastNoteTime` and strictly increasing |
| `Difficulty.LevelIgnored` | public/sketch.js:364-366 | the requested level has no effect on the chart |
| `Difficulty.RunningMax` | public/sketch.js:372-375 | `lastNoteTime` ends at the highest second seen, or at its start value |
| `Difficulty.KeepFromSnoc` | public/sketch.js:368-375 | appending a note keeps it exactly when its second is above the running maximum of the start value and every earlier note's second |
| `Difficulty.KeepsExactlyNewSeconds` | public/sketch.js:368-375 | the filter keeps exactly the notes whose second is later than the start value and than every earlier note's |
| `Difficulty.FixedPoint` | public/sketch.js:368-375 | a chart already one-per-second passes unchanged |
| `Difficulty.Idempotent` | public/sketch.js:364-378 | filtering twice is filtering once |
| `Difficulty.LeadingNoteKept` | public/sketch.js:367-371 | a first note starting at or after 0 is always kept |
| `Difficulty.EverySecondKept` | public/sketch.js:368-375 | for a chart in start order, every second some note starts in keeps a note |
| `Difficulty.ThinningExample` | public/sketch.js:367-374 | 0.1, 0.3, 0.9, 1.2, 1.25 and 2.9 thin to 0.1, 1.2 and 2.9 |
| `Entities.Center` | public/sketch.js:99 | a box's centre is its corner plus half the box size in each direction |
| `Entities.Contains` | public/sketch.js:127-143 | `contains` and `containsPoint`: the half-open square [x, x + 80) × [y, y + 80) |
| `Entities.IsGoldHit` | public/sketch.js:145-148 | a point is gold when it lies within 12.5 px of the box centre |
| `Entities.GoldImpliesInside` | public/sketch.js:127-148 | a point within the gold circle lies inside the box |
| `Entities.CenterIsGold` | public/sketch.js:99-148 | a box's centre is inside it and is gold |
| `Entities.NewBall` | public/sketch.js:51-64 | a new ball sits at the canvas centre, unlaunched, unhit, not missed, with a speed that reaches the target in 3 s |
| `Entities.UpdateBall` | public/sketch.js:66-76 | `launched` becomes true exactly once the clock reaches 3 s before the start, and then never clears; hit, missed, note, times and target never change; on the launch frame the speed is re-aimed from the current position at the target; a launched, unhit ball moves by its speed times the frame time, and otherwise stays put |
| `Entities.FlyDrift` | public/sketch.js:66-76 | over any run of frames a launched ball keeps its speed and flags and moves by speed × elapsed time (not at all once hit) |
| `Entities.ReachesTargetAfterTravelTime` | public/sketch.js:60-76 | a launched, unhit ball aimed at its target reaches it after 3000 ms of frames |
| `Entities.NewBallReachesTarget` | public/sketch.js:52-76 | a new ball whose first frame is at or past its launch time is launched in that frame and, unless hit, sits on its target once 3000 ms of frames have passed |
| `Entities.HitBallStays` | public/sketch.js:73-75 | a launched, hit ball never moves, over any frames |
| `Entities.WaitsUntilLaunch` | public/sketch.js:67-75 | before its launch time a ball is left unchanged |
| `Entities.OffScreen` | public/sketch.js:85-92 | a ball is off screen when it lies more than one diameter past any edge of the canvas |
| `Scoring.Miss` | public/sketch.js:227-228 | a miss costs one point and counts one miss, and nothing else changes |
| `Scoring.Good` | public/sketch.js:328-329 | a good hit adds one point and one good hit, and nothing else changes |
| `Scoring.Perfect` | public/sketch.js:322-323 | a perfect hit adds five points and one perfect hit, and nothing else changes |
| `Scoring.ZeroLedger` | public/sketch.js:6-9 | the initial counters satisfy points = 5 × perfect + good − misses |
| `Scoring.DeltasKeepLedger` | public/sketch.js:321-338 | every score delta keeps that ledger |
| `Scoring.MissTimesEffect` | public/sketch.js:220-232 | n misses in a frame cost n points, count n misses, and keep the ledger |
| `Scoring.LedgerBounds` | public/sketch.js:321-338 | under the ledger, points lie between −misses and 5 × hits |
| `Timing.Due` | public/sketch.js:206 | a note is due once the clock reaches 3 s before its start time |
| `Timing.NewlyMissed` | public/sketch.js:224 | an updated ball is penalised when it is off screen, not hit and not already missed |
| `Timing.NewMisses` | public/sketch.js:220-231 | the number of balls the update loop penalises |
| `Timing.UpdateGame` | public/sketch.js:202-243 | `updateGame`: launch the due notes, update and judge the balls (old ones, then new ones), then drop the balls that are off screen |
| `Timing.FindBox` | public/sketch.js:211 | `boxes.find` gives the first box named after the note, or none; an undefined name matches no box |
| `Timing.SpawnFor` | public/sketch.js:211-216 | a popped note adds one ball exactly when some box carries its name |
| `Timing.SpawnAll` | public/sketch.js:206-217 | the popped notes add at most one ball each |
| `Timing.Launch` | public/sketch.js:206-217 | the loop pops a prefix of due notes and stops at an empty queue or a head that is not due; the balls added are those of the popped prefix |
| `Timing.LaunchPopsExactlyDue` | public/sketch.js:206-217 | on a chart in start order, exactly the due notes are popped |
| `Timing.SpawnAllOnePerNote` | public/sketch.js:206-217 | when every popped note has a box, each gives one fresh ball, in order, with its name and times, aimed at its box's centre |
| `Timing.SpawnedFresh` | public/sketch.js:56-62 | spawned balls are unlaunched, unhit and not missed |
| `Timing.SpawnedDue` | public/sketch.js:207-216 | a ball spawned from due notes is due, so the same frame launches it |
| `Timing.Judge` | public/sketch.js:224-229 | the miss check sets `missed` exactly when the ball is newly off-screen and unhit, and changes nothing else |
| `Timing.UpdateBalls` | public/sketch.js:220-232 | each ball is updated and miss-checked, and the counters take one miss per newly missed ball |
| `Timing.RemoveOffScreen` | public/sketch.js:235 | the filter keeps an order-preserving subsequence holding exactly the on-screen balls |
| `Timing.UpdateGameScore` | public/sketch.js:202-243 | a frame costs one point and one miss per newly missed ball, leaves the hit counters alone, and keeps the ledger |
| `Timing.HitBallsNeverMissed` | public/sketch.js:224 | a field whose balls are all hit incurs no miss |
| `Timing.JudgedInPlay` | public/sketch.js:220-229 | a due or launched ball not yet missed is launched and not missed after its update, unless it is off-screen |
| `Timing.UpdateBallsKeepsReady` | public/sketch.js:220-232 | the update loop leaves every such ball launched and not missed, or off-screen |
| `Timing.SpawnedReady` | public/sketch.js:206-217 | every ball spawned from due notes is unmissed and due for launch in the same frame |
| `Timing.AllReady` | public/sketch.js:206-220 | the balls in play followed by the balls spawned this frame are all due or launched, and none is missed |
| `Timing.UpdateGameKeepsInPlay` | public/sketch.js:202-243 | after a frame every remaining ball is launched and not missed, so no ball is penalised twice |
| `Hits.FirstBoxAt` | public/sketch.js:290-296 | the tap selects the first box containing it, or none |
| `Hits.Hittable` | public/sketch.js:307-308 | a ball can be hit from a box when it carries the box's note, is neither hit nor missed, and lies in the box |
| `Hits.FirstTarget` | public/sketch.js:305-312 | the first ball of the box's note that is unhit, not missed and inside the box, or none |
| `Hits.Tap` | public/sketch.js:287-345 | a tap keeps the number of balls, and a tap outside every box changes nothing |
| `Hits.TapOutcome` | public/sketch.js:298-344 | with no ball to hit, a tap is a miss; otherwise only the chosen ball becomes hit, scoring perfect exactly when it is in the gold circle and good otherwise |
| `Hits.TapKeepsLedger` | public/sketch.js:321-338 | every tap keeps the ledger |
| `Hits.TapHitsAtMostOne` | public/sketch.js:305-334 | a tap changes at most one ball, and only from unhit to hit |
| `Hits.GoldJudgedOnBall` | public/sketch.js:317 | gold is judged at the ball's position: any tap on a box whose ball is at its centre scores perfect |
| `Hits.AnyBallInTheBoxCounts` | public/sketch.js:307-329 | a ball anywhere in the box outside the gold circle is a good hit, wherever in the box the tap lands |
| `Hits.UnlaunchedBallCanBeHit` | public/sketch.js:307-308 | hit resolution does not look at `launched` |
| `Hits.TapKeepsInPlay` | public/sketch.js:334 | taps keep every ball launched and not missed |
| `Session.Initial` | public/sketch.js:3-26 | the state before any event: no chart, no balls, zero counters, not started, start button hidden, difficulty "easy" |
| `Session.OnStartButton` | public/sketch.js:268-273 | the press lies strictly inside the 100 × 50 button centred on the canvas |
| `Session.GameTime` | public/sketch.js:203 | the seconds since the game started |
| `Session.Handle` | public/sketch.js:168-200 | `gotSongConfig` stores the thinned chart and shows the button; a press on the visible button starts the game, and a press while running with the button hidden is `checkBoxInteraction` (lines 266-280); a frame runs `updateGame` once started |
| `Session.Run` | public/sketch.js:168-200 | the events handled one after the other |
| `Session.HandleKeepsLayout` | public/sketch.js:168-285 | no handler changes the canvas, the boxes or the difficulty |
| `Session.StartsOnButtonPress` | public/sketch.js:254-280 | the game starts exactly on a press strictly inside the visible start button, which then hides and records the press time |
| `Session.StartedStays` | public/sketch.js:254-280 | once started, the game stays started |
| `Session.IdleUntilStarted` | public/sketch.js:175-182 | until the game starts, no ball appears and the counters do not change |
| `Session.PressScores` | public/sketch.js:266-285 | a press while the game runs with the button hidden is exactly `checkBoxInteraction` at that point (balls and counters as the tap leaves them, nothing else changed); any other press leaves balls and counters alone, so a score change means such a tap |
| `Session.ConfigThinsChart` | public/sketch.js:168-173 | the loaded chart is thinned to one note per whole second from second 0, and the button shows |
| `Session.FrameLaunchesOnTime` | public/sketch.js:203-207 | a running frame launches the next note exactly when at least 1000 × (startTime − 3) ms have passed since the start |
| `Session.InitialInvariant` | public/sketch.js:3-14 | the state after setup keeps the ledger, and its (empty) field has only launched, unmissed balls |
| `Session.HandleInvariant` | public/sketch.js:168-285 | every handler keeps the ledger and keeps every ball launched and not missed |
| `Session.RunInvariant` | public/sketch.js:168-285 | any sequence of events keeps that invariant |
| `Session.Reachable` | public/sketch.js:6-9 | after any events from setup, −misses ≤ points ≤ 5 × hits, and no ball in play is marked missed |
| `Session.ButtonHiddenWhileRunning` | public/sketch.js:168-173 | presses and frames never show the button while the game runs; a configuration that arrives keeps it hidden exactly when the game has not started |

## Left out

- Audio decoding, file reading and writing, tag metadata, command-line handling, logging and `Date.now` timing. The model starts from the decoded first channel and ends with the song-data record.
- The YIN estimator is a function parameter (`PitchOracle`). `frequencyToMidiNote` is also a parameter, because it uses `Math.log2`.
- Sample rates are whole numbers (`nat`). The Web Audio sample rate is a float, but decoded files have integer rates.
- JavaScript doubles are modelled as exact `real` numbers. `Math.round` is `Floor(x + 0.5)` and `Math.floor` is `.Floor`. Rounding error is not modelled.
- `BeatDetector.DetectBeatsAndBpm`, `BeatDetector.BeatLoop`, `BeatDetector.Iteration`, `PitchExtractor.DetectPitches`, `SongData.Analyze`: require a sample rate of at least 4 (or 20). Below that, the window or chunk size is 0, and the source loops forever on a non-empty buffer. An empty buffer would give no beats or pitches at any rate.
- `BeatDetector.Energy`: requires a non-empty chunk. The source would give NaN for an empty one, but the detector never passes one.
- `Tempo.CalculateBpm`: requires the last beat time to differ from the first when there are two or more beats. The source would divide by zero there and give `Infinity`; the detector's beats are always more than 0.3 s apart, so it never does.
- `NoteSynthesizer.GenerateNotes`: its own contract gives only the error cases and the length. What each note holds is stated per index by `NoteSynthesizer.GeneratedNote`.
- `Hits.Tap`: its own contract gives only the length and the no-box case. The full case analysis is `Hits.TapOutcome`.
- `Hits.Tap`: the per-ball log line in `checkBoxInteraction` (public/sketch.js:306) formats `endTime.toFixed(2)`. That throws for the last ball of a tempo-0 chart, whose end is `null`, so in the source a tap whose ball loop reaches that ball ends with no effect. The model leaves logging out and resolves such a tap like any other.
- `minBPM` (analyze-mp3.js:98) is declared and never used; the model keeps it as the constant `BeatDetector.MinBpm`, and no rule reads it. `MIN_NOTE_INTERVAL` (analyze-mp3.js:8) is also never used and does not appear. `calculateBPM`'s `duration` argument is accepted and ignored.
- `Ball.update` reads p5's `deltaTime`, so the model takes the frame time in milliseconds as a parameter. The current time is likewise a parameter.
- `updateGame` collects the balls newly missed in `missedBalls` and only logs them before clearing the list. The model does not keep that list.
- Rendering is not modelled:
  - `show`;
  - colours, including the 200 ms colour revert;
  - `drawStartButton`;
  - the score text;
  - the 2 s delayed `song.play`.
- `SongData.ReplaceFirst`: models `replace` with a plain replacement string only. The `$&`, `$$`, `` $` `` and `$'` patterns are not expanded; the replacements the source passes contain no `$`.
- `createBoxes` and `windowResized` are not modelled. Their cosine and sine layout is replaced by a given sequence of boxes.
- `loadSound` and `loadJSON` are not modelled. The configuration arrives as the `ConfigLoaded` event.
- The `Ball.distance` field, the colour fields and `NOTE_DIRECTIONS` are not read by any game rule, so they are left out.

=== FILE: beat_detector.dfy ===
/** The energy-based beat detector `detectBeatsAndBPM`: the buffer is cut into
    quarter-second windows and a window is a beat when its energy exceeds the
    rolling average of the last 43 windows by 15% and the previous beat is
    more than 60/200 s earlier. */
module BeatDetector {
  import opened Numeric
  import opened Framing
  import opened Records
  import opened Tempo
  import opened Sequences

  /** Declared by the source but never consulted by the accept rule. */
  const MinBpm: int := 30
  const MaxBpm: int := 200
  const BeatThreshold: real := 0.15
  const HistoryLimit: nat := 43

  /** The refractory period `60 / maxBPM`, in seconds. */
  const MinBeatGap: real := 60.0 / MaxBpm as real

  /** The gap in seconds, for proofs that need the number. */
  lemma MinBeatGapValue()
    ensures MinBeatGap == 0.3
  {
  }

  /** `Math.floor(sampleRate / 4)`: samples per quarter-second window. */
  function BufferSize(sampleRate: nat): nat {
    sampleRate / 4
  }

  function Squares(s: seq<real>): (q: seq<real>)
    ensures |q| == |s|
    ensures forall i :: 0 <= i < |s| ==> q[i] == s[i] * s[i]
  {
    seq(|s|, i requires 0 <= i < |s| => s[i] * s[i])
  }

  lemma SquareAtMostOne(x: real)
    requires -1.0 <= x <= 1.0
    ensures x * x <= 1.0
  {
    if x >= 0.0 {
      assert x * x <= x * 1.0;
    } else {
      assert x * x == (-x) * (-x);
      assert (-x) * (-x) <= (-x) * 1.0;
    }
  }

  /** Squares are non-negative, vanish exactly at zero, and are at most 1
      on [-1, 1]. */
  lemma SquaresFacts(s: seq<real>)
    ensures AllNonNegative(Squares(s))
    ensures forall i :: 0 <= i < |s| ==> (Squares(s)[i] == 0.0 <==> s[i] == 0.0)
    ensures (forall i :: 0 <= i < |s| ==> -1.0 <= s[i] <= 1.0) ==>
              forall i :: 0 <= i < |s| ==> Squares(s)[i] <= 1.0
  {
    var sq := Squares(s);
    forall i | 0 <= i < |s| && s[i] != 0.0 ensures sq[i] > 0.0 {
      calc {
        sq[i];
      ==
        s[i] * s[i];
      > { SquarePositive(s[i]); }
        0.0;
      }
    }
    if forall i :: 0 <= i < |s| ==> -1.0 <= s[i] <= 1.0 {
      forall i | 0 <= i < |s| ensures sq[i] <= 1.0 {
        SquareAtMostOne(s[i]);
      }
    }
  }

  /** `calculateEnergy`: the mean squared amplitude of a window. It is never
      negative, vanishes exactly on silent windows, and is at most 1 for
      samples in [-1, 1]. */
  function Energy(chunk: seq<real>): (e: real)
    requires |chunk| > 0
    ensures e >= 0.0
    ensures e == 0.0 <==> forall i :: 0 <= i < |chunk| ==> chunk[i] == 0.0
    ensures (forall i :: 0 <= i < |chunk| ==> -1.0 <= chunk[i] <= 1.0) ==> e <= 1.0
  {
    var sq := Squares(chunk);
    var n := |chunk| as real;
    SquaresFacts(chunk);
    SumNonNegative(sq);
    SumZeroIff(sq);
    DivAtLeast(Sum(sq), n, 0.0);
    QuotientZero(Sum(sq), n);
    if forall i :: 0 <= i < |chunk| ==> -1.0 <= chunk[i] <= 1.0 then
      SumBounded(sq, 1.0);
      DivAtMost(Sum(sq), n, 1.0);
      Sum(sq) / n
    else
      Sum(sq) / n
  }

  /** `energyHistory.push(e)` followed by one `shift()` when it grew past 43:
      from a history within the limit it keeps the last `min(k + 1, 43)` energies. */
  function PushEnergy(history: seq<real>, e: real): (h: seq<real>)
    ensures |h| > 0 && h[|h| - 1] == e
    ensures |history| <= HistoryLimit ==>
      && |h| == Min(|history| + 1, HistoryLimit)
      && h == (history + [e])[|history| + 1 - |h|..]
  {
    var pushed := history + [e];
    if |pushed| > HistoryLimit then pushed[1..] else pushed
  }

  /** The accept rule of the detector loop. */
  predicate Accepts(energy: real, average: real, time: real, lastBeatTime: real) {
    energy > average * (1.0 + BeatThreshold) && time - lastBeatTime > MinBeatGap
  }

  /** The loop-carried variables of the detector. */
  datatype DetectorState = DetectorState(history: seq<real>, lastBeatTime: real, beats: seq<Beat>)

  const Initial: DetectorState := DetectorState([], -1.0, [])

  /** One loop iteration for a window with energy `energy` starting at `time`. */
  function Step(st: DetectorState, energy: real, time: real): DetectorState {
    var h := PushEnergy(st.history, energy);
    if Accepts(energy, Mean(h), time, st.lastBeatTime) then
      DetectorState(h, time, st.beats + [Beat(time)])
    else
      st.(history := h)
  }

  /** The energy of window `j`, or 0 past the end of the buffer. */
  function WindowEnergy(samples: seq<real>, sampleRate: nat, j: nat): real
    requires sampleRate >= 4
  {
    var bs := BufferSize(sampleRate);
    if j * bs < |samples| then Energy(Frame(samples, j * bs, bs)) else 0.0
  }

  /** The start time of window `j`. */
  function WindowTime(sampleRate: nat, j: nat): real
    requires sampleRate >= 4
  {
    FrameTime(j * BufferSize(sampleRate), sampleRate)
  }

  /** The detector loop from window `j` on, as a recursive function. */
  function Scan(samples: seq<real>, sampleRate: nat, j: nat, st: DetectorState): DetectorState
    requires sampleRate >= 4
    decreases |samples| - j * BufferSize(sampleRate)
  {
    var bs := BufferSize(sampleRate);
    if j * bs >= |samples| then st
    else
      NextStart(j, bs);
      Scan(samples, sampleRate, j + 1, Step(st, WindowEnergy(samples, sampleRate, j), WindowTime(sampleRate, j)))
  }

  /** The loop runs one more iteration while window `j` lies in the buffer. */
  lemma ScanUnfold(samples: seq<real>, sampleRate: nat, j: nat, st: DetectorState)
    requires sampleRate >= 4 && j * BufferSize(sampleRate) < |samples|
    ensures Scan(samples, sampleRate, j, st)
         == Scan(samples, sampleRate, j + 1, Step(st, WindowEnergy(samples, sampleRate, j), WindowTime(sampleRate, j)))
  {
  }

  /** The beats `detectBeatsAndBPM` returns. */
  function DetectBeats(samples: seq<real>, sampleRate: nat): seq<Beat>
    requires sampleRate >= 4
  {
    Scan(samples, sampleRate, 0, Initial).beats
  }

  /** Window `j` is a window of the buffer other than the first, with
      positive energy. */
  ghost predicate BeatWindow(samples: seq<real>, sampleRate: nat, j: nat)
    requires sampleRate >= 4
  {
    && 0 < j
    && j * BufferSize(sampleRate) < |samples|
    && WindowEnergy(samples, sampleRate, j) > 0.0
  }

  /** `t` is the start time of such a window. */
  ghost predicate OnBeatGrid(samples: seq<real>, sampleRate: nat, t: real)
    requires sampleRate >= 4
  {
    exists j: nat :: BeatWindow(samples, sampleRate, j) && t == WindowTime(sampleRate, j)
  }

  /** The energies of windows `lo` up to but excluding `hi`, in order. */
  ghost function Energies(samples: seq<real>, sampleRate: nat, lo: nat, hi: nat): (es: seq<real>)
    requires sampleRate >= 4 && lo <= hi
    ensures |es| == hi - lo
    decreases hi - lo
  {
    if lo == hi then [] else Energies(samples, sampleRate, lo, hi - 1) + [WindowEnergy(samples, sampleRate, hi - 1)]
  }

  lemma {:induction false} EnergiesAt(samples: seq<real>, sampleRate: nat, lo: nat, hi: nat, k: nat)
    requires sampleRate >= 4 && lo <= hi && k < hi - lo
    ensures Energies(samples, sampleRate, lo, hi)[k] == WindowEnergy(samples, sampleRate, lo + k)
    decreases hi - lo
  {
    if k < hi - 1 - lo {
      EnergiesAt(samples, sampleRate, lo, hi - 1, k);
    }
  }

  lemma {:induction false} EnergiesDropFirst(samples: seq<real>, sampleRate: nat, lo: nat, hi: nat)
    requires sampleRate >= 4 && lo < hi
    ensures Energies(samples, sampleRate, lo + 1, hi) == Energies(samples, sampleRate, lo, hi)[1..]
    decreases hi - lo
  {
    if lo + 1 < hi {
      EnergiesDropFirst(samples, sampleRate, lo, hi - 1);
      DropFirstOfSnoc(Energies(samples, sampleRate, lo, hi - 1), WindowEnergy(samples, sampleRate, hi - 1));
    }
  }

  /** The history before window `j` holds the energies of the last
      `min(j, 43)` windows, oldest first. */
  ghost predicate HistoryInvariant(samples: seq<real>, sampleRate: nat, j: nat, history: seq<real>)
    requires sampleRate >= 4
  {
    history == Energies(samples, sampleRate, j - Min(j, HistoryLimit), j)
  }

  /** The beats found before window `j` are spaced, lie on the beat grid and
      precede window `j`; `lastBeatTime` is the last of them, or -1. */
  ghost predicate BeatsInvariant(samples: seq<real>, sampleRate: nat, j: nat, lastBeatTime: real, beats: seq<Beat>)
    requires sampleRate >= 4
  {
    && SpacedBy(beats, MinBeatGap)
    && (|beats| == 0 ==> lastBeatTime == -1.0)
    && (|beats| > 0 ==> lastBeatTime == beats[|beats| - 1].time)
    && (forall k :: 0 <= k < |beats| ==> OnBeatGrid(samples, sampleRate, beats[k].time))
    && (forall k :: 0 <= k < |beats| ==> beats[k].time < WindowTime(sampleRate, j))
  }

  /** What the loop variables satisfy before window `j`. */
  ghost predicate Invariant(samples: seq<real>, sampleRate: nat, j: nat, st: DetectorState)
    requires sampleRate >= 4
  {
    && HistoryInvariant(samples, sampleRate, j, st.history)
    && BeatsInvariant(samples, sampleRate, j, st.lastBeatTime, st.beats)
  }

  lemma InitialInvariant(samples: seq<real>, sampleRate: nat)
    requires sampleRate >= 4
    ensures Invariant(samples, sampleRate, 0, Initial)
  {
  }

  lemma WindowEnergyNonNegative(samples: seq<real>, sampleRate: nat, j: nat)
    requires sampleRate >= 4
    ensures WindowEnergy(samples, sampleRate, j) >= 0.0
  {
  }

  /** The window after `j` starts strictly later, at most a quarter second on. */
  lemma WindowTimeStep(sampleRate: nat, j: nat)
    requires sampleRate >= 4
    ensures WindowTime(sampleRate, j) < WindowTime(sampleRate, j + 1)
    ensures WindowTime(sampleRate, j + 1) - WindowTime(sampleRate, j) <= 0.25
  {
    var bs := BufferSize(sampleRate);
    NextStart(j, bs);
    FrameTimeStep(j * bs, bs, sampleRate);
    FrameTimeStrictlyIncreasing(j * bs, j * bs + bs, sampleRate);
    DivAtMost(bs as real, sampleRate as real, 0.25);
  }

  lemma HistoryNonNegative(samples: seq<real>, sampleRate: nat, j: nat, history: seq<real>)
    requires sampleRate >= 4
    requires HistoryInvariant(samples, sampleRate, j, history)
    ensures AllNonNegative(history)
  {
    forall k | 0 <= k < |history| ensures history[k] >= 0.0 {
      EnergiesAt(samples, sampleRate, j - Min(j, HistoryLimit), j, k);
      WindowEnergyNonNegative(samples, sampleRate, j - Min(j, HistoryLimit) + k);
    }
  }

  /** The mean the accept rule uses includes the current window. So a window
      is only accepted when it is loud (positive energy) and is not the
      first (whose average is its own energy). */
  lemma AcceptedWindowIsLoud(history: seq<real>, e: real, time: real, last: real)
    requires AllNonNegative(history) && e >= 0.0
    requires Accepts(e, Mean(PushEnergy(history, e)), time, last)
    ensures e > 0.0
    ensures |history| > 0
  {
    var h := PushEnergy(history, e);
    assert AllNonNegative(h) by {
      forall k | 0 <= k < |h| ensures h[k] >= 0.0 {
        if |history + [e]| > HistoryLimit {
          assert h[k] == (history + [e])[k + 1];
        } else {
          assert h[k] == (history + [e])[k];
        }
      }
    }
    MeanNonNegative(h);
    if |history| == 0 {
      assert h == [e];
      MeanSingleton(e);
    }
  }

  lemma MeanSingleton(e: real)
    ensures Mean([e]) == e
  {
    var s := [e];
    assert s[..|s| - 1] == [];
    assert Sum(s) == Sum([]) + e;
  }

  /** One iteration keeps the history invariant. */
  lemma StepHistory(samples: seq<real>, sampleRate: nat, j: nat, history: seq<real>)
    requires sampleRate >= 4
    requires HistoryInvariant(samples, sampleRate, j, history)
    ensures HistoryInvariant(samples, sampleRate, j + 1,
                             PushEnergy(history, WindowEnergy(samples, sampleRate, j)))
  {
    var lo := j - Min(j, HistoryLimit);
    var pushed := history + [WindowEnergy(samples, sampleRate, j)];
    assert pushed == Energies(samples, sampleRate, lo, j + 1);
    if |pushed| > HistoryLimit {
      EnergiesDropFirst(samples, sampleRate, lo, j + 1);
    }
  }

  /** One iteration keeps the beats invariant. */
  lemma StepBeats(samples: seq<real>, sampleRate: nat, j: nat, st: DetectorState)
    requires sampleRate >= 4
    requires j * BufferSize(sampleRate) < |samples|
    requires Invariant(samples, sampleRate, j, st)
    ensures var st' := Step(st, WindowEnergy(samples, sampleRate, j), WindowTime(sampleRate, j));
            BeatsInvariant(samples, sampleRate, j + 1, st'.lastBeatTime, st'.beats)
  {
    var e := WindowEnergy(samples, sampleRate, j);
    var t := WindowTime(sampleRate, j);
    var st' := Step(st, e, t);
    var h := PushEnergy(st.history, e);
    WindowTimeStep(sampleRate, j);
    if Accepts(e, Mean(h), t, st.lastBeatTime) {
      WindowEnergyNonNegative(samples, sampleRate, j);
      HistoryNonNegative(samples, sampleRate, j, st.history);
      AcceptedWindowIsLoud(st.history, e, t, st.lastBeatTime);
      assert BeatWindow(samples, sampleRate, j);
      AppendSpaced(st.beats, t, MinBeatGap);
    }
  }

  /** A beat more than `gap` after the last of beats spaced by `gap` keeps
      them spaced. */
  lemma AppendSpaced(beats: seq<Beat>, t: real, gap: real)
    requires gap >= 0.0 && SpacedBy(beats, gap)
    requires |beats| > 0 ==> t - beats[|beats| - 1].time > gap
    ensures SpacedBy(beats + [Beat(t)], gap)
  {
    var all := beats + [Beat(t)];
    forall a, b | 0 <= a < b < |all| ensures all[b].time - all[a].time > gap {
      if b == |beats| && a < |beats| - 1 {
        assert beats[|beats| - 1].time - beats[a].time > gap;
      }
    }
  }

  /** One iteration keeps the invariant. */
  lemma StepInvariant(samples: seq<real>, sampleRate: nat, j: nat, st: DetectorState)
    requires sampleRate >= 4
    requires j * BufferSize(sampleRate) < |samples|
    requires Invariant(samples, sampleRate, j, st)
    ensures Invariant(samples, sampleRate, j + 1,
                      Step(st, WindowEnergy(samples, sampleRate, j), WindowTime(sampleRate, j)))
  {
    StepHistory(samples, sampleRate, j, st.history);
    StepBeats(samples, sampleRate, j, st);
  }

  /** The invariant holds of the state the loop ends in. */
  lemma {:induction false} ScanInvariant(samples: seq<real>, sampleRate: nat, j: nat, st: DetectorState)
    returns (jEnd: nat)
    requires sampleRate >= 4
    requires Invariant(samples, sampleRate, j, st)
    ensures Invariant(samples, sampleRate, jEnd, Scan(samples, sampleRate, j, st))
    decreases |samples| - j * BufferSize(sampleRate)
  {
    var bs := BufferSize(sampleRate);
    if j * bs >= |samples| {
      jEnd := j;
    } else {
      NextStart(j, bs);
      StepInvariant(samples, sampleRate, j, st);
      jEnd := ScanInvariant(samples, sampleRate, j + 1,
                            Step(st, WindowEnergy(samples, sampleRate, j), WindowTime(sampleRate, j)));
    }
  }

  /** Detected beats are strictly increasing, more than 0.3 s apart, and each
      starts a window of positive energy other than the first window. */
  lemma DetectedBeatsWellFormed(samples: seq<real>, sampleRate: nat)
    requires sampleRate >= 4
    ensures SpacedBy(DetectBeats(samples, sampleRate), MinBeatGap)
    ensures forall k :: 0 <= k < |DetectBeats(samples, sampleRate)| ==>
              OnBeatGrid(samples, sampleRate, DetectBeats(samples, sampleRate)[k].time)
  {
    InitialInvariant(samples, sampleRate);
    var _ := ScanInvariant(samples, sampleRate, 0, Initial);
  }

  lemma DetectedBeatsSpaced(samples: seq<real>, sampleRate: nat)
    requires sampleRate >= 4
    ensures SpacedBy(DetectBeats(samples, sampleRate), MinBeatGap)
  {
    DetectedBeatsWellFormed(samples, sampleRate);
  }

  lemma WindowTimePositive(sampleRate: nat, j: nat)
    requires sampleRate >= 4 && j > 0
    ensures WindowTime(sampleRate, j) > 0.0
  {
    var bs := BufferSize(sampleRate);
    StartGap(0, j, bs);
    FrameTimeStrictlyIncreasing(0, j * bs, sampleRate);
  }

  /** The first window never holds a beat: every beat is strictly after 0. */
  lemma FirstWindowNeverBeat(samples: seq<real>, sampleRate: nat)
    requires sampleRate >= 4
    ensures forall k :: 0 <= k < |DetectBeats(samples, sampleRate)| ==>
              DetectBeats(samples, sampleRate)[k].time > 0.0
  {
    DetectedBeatsWellFormed(samples, sampleRate);
    var beats := DetectBeats(samples, sampleRate);
    forall k | 0 <= k < |beats| ensures beats[k].time > 0.0 {
      assert OnBeatGrid(samples, sampleRate, beats[k].time);
      var j: nat :| BeatWindow(samples, sampleRate, j) && beats[k].time == WindowTime(sampleRate, j);
      WindowTimePositive(sampleRate, j);
    }
  }

  /** Two adjacent windows are never both beats: they start at most a
      quarter second apart, inside the refractory period. */
  lemma AdjacentWindowsNotBothBeats(samples: seq<real>, sampleRate: nat, j: nat)
    requires sampleRate >= 4
    ensures !(Beat(WindowTime(sampleRate, j)) in DetectBeats(samples, sampleRate)
              && Beat(WindowTime(sampleRate, j + 1)) in DetectBeats(samples, sampleRate))
  {
    var beats := DetectBeats(samples, sampleRate);
    var t0, t1 := WindowTime(sampleRate, j), WindowTime(sampleRate, j + 1);
    WindowTimeStep(sampleRate, j);
    DetectedBeatsSpaced(samples, sampleRate);
    MinBeatGapValue();
  }

  /** One pass of the source's loop body at sample `i`, window `j`, takes the
      loop variables from `st` to `st'` as one step of `Scan` does. */
  lemma LoopBodyIsStep(samples: seq<real>, sampleRate: nat, i: nat, j: nat, st: DetectorState,
                       energy: real, average: real, time: real, st': DetectorState)
    requires sampleRate >= 4 && i == j * BufferSize(sampleRate) && i < |samples|
    requires energy == Energy(samples[i..Min(i + BufferSize(sampleRate), |samples|)])
    requires st'.history == PushEnergy(st.history, energy)
    requires average == Sum(st'.history) / |st'.history| as real
    requires time == i as real / sampleRate as real
    requires if energy > average * (1.0 + BeatThreshold) && time - st.lastBeatTime > MinBeatGap
             then st'.lastBeatTime == time && st'.beats == st.beats + [Beat(time)]
             else st'.lastBeatTime == st.lastBeatTime && st'.beats == st.beats
    ensures Scan(samples, sampleRate, j + 1, st') == Scan(samples, sampleRate, j, st)
  {
    ScanUnfold(samples, sampleRate, j, st);
    assert st' == Step(st, WindowEnergy(samples, sampleRate, j), WindowTime(sampleRate, j));
  }

  /** The body of the loop of `detectBeatsAndBPM` for the window starting at
      sample `i`: measure it, push its energy, and accept it as a beat by the
      accept rule. */
  method Iteration(samples: seq<real>, sampleRate: nat, i: nat, ghost j: nat,
                   history: seq<real>, lastBeatTime: real, beats: seq<Beat>)
    returns (history': seq<real>, lastBeatTime': real, beats': seq<Beat>)
    requires sampleRate >= 4 && i == j * BufferSize(sampleRate) && i < |samples|
    ensures Scan(samples, sampleRate, j + 1, DetectorState(history', lastBeatTime', beats'))
         == Scan(samples, sampleRate, j, DetectorState(history, lastBeatTime, beats))
  {
    var chunk := samples[i..Min(i + BufferSize(sampleRate), |samples|)];
    var energy := Energy(chunk);
    history' := history + [energy];
    if |history'| > HistoryLimit {
      history' := history'[1..];
    }
    var averageEnergy := Sum(history') / |history'| as real;
    var currentTime := i as real / sampleRate as real;
    lastBeatTime', beats' := lastBeatTime, beats;
    if energy > averageEnergy * (1.0 + BeatThreshold) && currentTime - lastBeatTime > MinBeatGap {
      beats' := beats + [Beat(currentTime)];
      lastBeatTime' := currentTime;
    }
    LoopBodyIsStep(samples, sampleRate, i, j, DetectorState(history, lastBeatTime, beats),
                   energy, averageEnergy, currentTime, DetectorState(history', lastBeatTime', beats'));
  }

  /** The loop of `detectBeatsAndBPM`: one window per iteration, `i` stepping
      by the window size. */
  method BeatLoop(samples: seq<real>, sampleRate: nat) returns (beats: seq<Beat>)
    requires sampleRate >= 4
    ensures beats == DetectBeats(samples, sampleRate)
  {
    var bufferSize := BufferSize(sampleRate);
    var history: seq<real> := [];
    var lastBeatTime := -1.0;
    beats := [];
    var i := 0;
    ghost var j: nat := 0;
    while i < |samples|
      invariant i == j * bufferSize
      invariant Scan(samples, sampleRate, j, DetectorState(history, lastBeatTime, beats))
             == Scan(samples, sampleRate, 0, Initial)
      decreases |samples| - i
    {
      history, lastBeatTime, beats := Iteration(samples, sampleRate, i, j, history, lastBeatTime, beats);
      NextStart(j, bufferSize);
      i := i + bufferSize;
      j := j + 1;
    }
  }

  /** `detectBeatsAndBPM`: the loop, then the tempo of the beats it found. */
  method DetectBeatsAndBpm(samples: seq<real>, sampleRate: nat, duration: real)
    returns (beats: seq<Beat>, bpm: int)
    requires sampleRate >= 4
    ensures beats == DetectBeats(samples, sampleRate)
    ensures SpacedBy(beats, MinBeatGap)
    ensures forall k :: 0 <= k < |beats| ==> OnBeatGrid(samples, sampleRate, beats[k].time)
    ensures bpm == CalculateBpm(beats, duration)
  {
    beats := BeatLoop(samples, sampleRate);
    DetectedBeatsWellFormed(samples, sampleRate);
    if |beats| >= 2 {
      assert beats[|beats| - 1].time - beats[0].time > MinBeatGap;
    }
    bpm := CalculateBpm(beats, duration);
  }
}

=== FILE: difficulty.dfy ===
/** `setDifficulty`: whatever level is asked for, the chart is thinned to at
    most one note per whole second of start time. */
module Difficulty {
  import opened Wrappers
  import opened Records
  import opened Sequences

  /** The whole second a note starts in (`Math.floor(note.startTime)`). */
  function Second(n: Note): int {
    n.startTime.Floor
  }

  /** The filter loop from a given `lastNoteTime` on: a note is kept when it
      starts in a later whole second than the last kept note. */
  function KeepFrom(notes: seq<Note>, last: int): (r: seq<Note>)
    ensures IsSubsequence(r, notes)
    ensures forall i :: 0 <= i < |r| ==> Second(r[i]) > last
    ensures forall i, j :: 0 <= i < j < |r| ==> Second(r[i]) < Second(r[j])
    decreases |notes|
  {
    if |notes| == 0 then []
    else if Second(notes[0]) > last then [notes[0]] + KeepFrom(notes[1..], Second(notes[0]))
    else KeepFrom(notes[1..], last)
  }

  /** `setDifficulty(diff)`: `lastNoteTime` starts at -1 and `diff` is only
      stored, never consulted. */
  function SetDifficulty(level: string, notes: seq<Note>): seq<Note> {
    KeepFrom(notes, -1)
  }

  /** The level has no effect on the chart. */
  lemma LevelIgnored(a: string, b: string, notes: seq<Note>)
    ensures SetDifficulty(a, notes) == SetDifficulty(b, notes)
  {
  }

  /** Note `i` starts in a later second than `last` and than every note
      before it. */
  ghost predicate NewSecond(notes: seq<Note>, last: int, i: int)
    requires 0 <= i < |notes|
  {
    Second(notes[i]) > last && forall k :: 0 <= k < i ==> Second(notes[k]) < Second(notes[i])
  }

  /** The notes for which `NewSecond` holds, in order: an independent
      description of what the filter keeps. */
  ghost function NewSeconds(notes: seq<Note>, last: int): seq<Note>
    decreases |notes|
  {
    if |notes| == 0 then []
    else
      var init := notes[..|notes| - 1];
      NewSeconds(init, last) + (if NewSecond(notes, last, |notes| - 1) then [notes[|notes| - 1]] else [])
  }

  /** The highest second among `notes`, or `last` if that is higher: the
      value `lastNoteTime` holds after the loop. */
  function RunningMax(notes: seq<Note>, last: int): (m: int)
    ensures m >= last
    ensures forall k :: 0 <= k < |notes| ==> Second(notes[k]) <= m
    ensures m == last || exists k :: 0 <= k < |notes| && Second(notes[k]) == m
    decreases |notes|
  {
    if |notes| == 0 then last
    else
      var m := RunningMax(notes[1..], if Second(notes[0]) > last then Second(notes[0]) else last);
      assert forall k :: 1 <= k < |notes| ==> notes[k] == notes[1..][k - 1];
      m
  }

  /** Appending a note keeps it exactly when it starts in a later second
      than everything before it (and than `last`). */
  lemma {:induction false} KeepFromSnoc(notes: seq<Note>, last: int, x: Note)
    ensures KeepFrom(notes + [x], last)
         == KeepFrom(notes, last) + (if Second(x) > RunningMax(notes, last) then [x] else [])
    decreases |notes|
  {
    if |notes| == 0 {
      assert notes + [x] == [x];
    } else {
      var a := notes[0];
      assert (notes + [x])[0] == a;
      assert (notes + [x])[1..] == notes[1..] + [x];
      var next := if Second(a) > last then Second(a) else last;
      KeepFromSnoc(notes[1..], next, x);
    }
  }

  /** The filter keeps exactly the notes that start in a new second. */
  lemma {:induction false} KeepsExactlyNewSeconds(notes: seq<Note>, last: int)
    ensures KeepFrom(notes, last) == NewSeconds(notes, last)
    decreases |notes|
  {
    if |notes| > 0 {
      var n := |notes|;
      var init, x := notes[..n - 1], notes[n - 1];
      assert notes == init + [x];
      KeepsExactlyNewSeconds(init, last);
      KeepFromSnoc(init, last, x);
      var m := RunningMax(init, last);
      if Second(x) > m {
        forall k | 0 <= k < n - 1 ensures Second(notes[k]) < Second(x) {
          assert notes[k] == init[k];
        }
        assert NewSecond(notes, last, n - 1);
      } else {
        assert !NewSecond(notes, last, n - 1);
      }
    }
  }

  /** A whole sequence that already has strictly increasing seconds after
      `last` passes the filter unchanged. */
  lemma {:induction false} FixedPoint(notes: seq<Note>, last: int)
    requires forall i :: 0 <= i < |notes| ==> Second(notes[i]) > last
    requires forall i, j :: 0 <= i < j < |notes| ==> Second(notes[i]) < Second(notes[j])
    ensures KeepFrom(notes, last) == notes
    decreases |notes|
  {
    if |notes| > 0 {
      FixedPoint(notes[1..], Second(notes[0]));
      assert [notes[0]] + notes[1..] == notes;
    }
  }

  /** Filtering twice is filtering once. */
  lemma Idempotent(level: string, notes: seq<Note>)
    ensures SetDifficulty(level, SetDifficulty(level, notes)) == SetDifficulty(level, notes)
  {
    FixedPoint(KeepFrom(notes, -1), -1);
  }

  /** The first note is always kept when it starts at or after 0. */
  lemma LeadingNoteKept(level: string, notes: seq<Note>)
    requires |notes| > 0 && notes[0].startTime >= 0.0
    ensures |SetDifficulty(level, notes)| > 0 && SetDifficulty(level, notes)[0] == notes[0]
  {
  }

  /** For notes in start-time order, every second some note starts in (after
      `last`) keeps a note. */
  lemma {:induction false} EverySecondKept(notes: seq<Note>, last: int, i: nat)
    requires forall a, b :: 0 <= a < b < |notes| ==> notes[a].startTime <= notes[b].startTime
    requires i < |notes| && Second(notes[i]) > last
    ensures exists j :: 0 <= j < |KeepFrom(notes, last)| && Second(KeepFrom(notes, last)[j]) == Second(notes[i])
    decreases |notes|
  {
    var r := KeepFrom(notes, last);
    if Second(notes[0]) > last {
      if i == 0 || Second(notes[i]) == Second(notes[0]) {
        assert Second(r[0]) == Second(notes[i]);
      } else {
        assert notes[0].startTime <= notes[i].startTime;
        assert Second(notes[i]) > Second(notes[0]);
        EverySecondKept(notes[1..], Second(notes[0]), i - 1);
        var j :| 0 <= j < |KeepFrom(notes[1..], Second(notes[0]))|
          && Second(KeepFrom(notes[1..], Second(notes[0]))[j]) == Second(notes[i]);
        assert r[j + 1] == KeepFrom(notes[1..], Second(notes[0]))[j];
      }
    } else {
      assert i > 0;
      EverySecondKept(notes[1..], last, i - 1);
    }
  }

  function At(t: real): Note {
    Note(None, t, Some(0.0), Some(t), 100)
  }

  /** Start times 0.1, 0.3, 0.9, 1.2, 1.25, 2.9 keep 0.1, 1.2 and 2.9. */
  lemma ThinningExample(level: string)
    ensures SetDifficulty(level, [At(0.1), At(0.3), At(0.9), At(1.2), At(1.25), At(2.9)])
         == [At(0.1), At(1.2), At(2.9)]
  {
    var ns := [At(0.1), At(0.3), At(0.9), At(1.2), At(1.25), At(2.9)];
    assert Second(At(0.1)) == 0 && Second(At(0.3)) == 0 && Second(At(0.9)) == 0;
    assert Second(At(1.2)) == 1 && Second(At(1.25)) == 1 && Second(At(2.9)) == 2;
    assert ns[1..][1..][1..] == [At(1.2), At(1.25), At(2.9)];
    assert KeepFrom([At(2.9)], 1) == [At(2.9)];
    assert KeepFrom([At(1.25), At(2.9)], 1) == [At(2.9)];
    assert KeepFrom([At(1.2), At(1.25), At(2.9)], 0) == [At(1.2), At(2.9)];
  }
}

=== FILE: entities.dfy ===
/** The game's on-screen objects: the note boxes arranged around the
    centre and the balls that fly from the centre to their box. Positions
    are exact `real` vectors; the canvas size is a parameter. */
module Entities {
  import opened Numeric
  import opened Wrappers

  datatype Vec = Vec(x: real, y: real)

  function Add(a: Vec, b: Vec): Vec {
    Vec(a.x + b.x, a.y + b.y)
  }

  function Sub(a: Vec, b: Vec): Vec {
    Vec(a.x - b.x, a.y - b.y)
  }

  function Scale(a: Vec, k: real): Vec {
    Vec(a.x * k, a.y * k)
  }

  /** Squared Euclidean distance (`dist` compares against a radius, so the
      square root is not needed). */
  function SqDist(a: Vec, b: Vec): real {
    (a.x - b.x) * (a.x - b.x) + (a.y - b.y) * (a.y - b.y)
  }

  const BallDiameter: real := 20.0
  /** `BALL_DIAMETER * 4`. */
  const BoxSize: real := BallDiameter * 4.0
  /** Seconds a ball takes from the centre to its box. */
  const TravelTime: real := 3.0
  /** `BALL_DIAMETER * 1.25`: the gold target circle. */
  const TargetDiameter: real := BallDiameter * 1.25

  /** The drawing surface. */
  datatype Canvas = Canvas(width: real, height: real)

  function CanvasCenter(c: Canvas): Vec {
    Vec(c.width / 2.0, c.height / 2.0)
  }

  /** A note box: its top-left corner and its note name. */
  datatype Box = Box(pos: Vec, note: string)

  function Center(b: Box): Vec {
    Vec(b.pos.x + BoxSize / 2.0, b.pos.y + BoxSize / 2.0)
  }

  /** `Box.contains` and `Box.containsPoint`, which are the same test: the
      half-open square `[x, x + size) × [y, y + size)`. */
  predicate Contains(b: Box, p: Vec) {
    b.pos.x <= p.x < b.pos.x + BoxSize && b.pos.y <= p.y < b.pos.y + BoxSize
  }

  /** `Box.isGoldHit`: within the target circle's radius of the centre. */
  predicate IsGoldHit(b: Box, p: Vec) {
    SqDist(p, Center(b)) <= (TargetDiameter / 2.0) * (TargetDiameter / 2.0)
  }

  lemma SquareNonNegative(x: real)
    ensures x * x >= 0.0
  {
    if x != 0.0 {
      SquarePositive(x);
    }
  }

  lemma SquareBound(d: real, r: real)
    requires r >= 0.0 && d * d <= r * r
    ensures -r <= d <= r
  {
    if d > r {
      assert (d - r) * (d + r) == d * d - r * r;
      MulPositive(d - r, d + r);
    } else if d < -r {
      assert (d - r) * (d + r) == d * d - r * r;
      MulNegative(d - r, d + r);
    }
  }

  /** A gold hit lies inside the box: the target circle is centred in the
      box and much smaller than it. */
  lemma GoldImpliesInside(b: Box, p: Vec)
    requires IsGoldHit(b, p)
    ensures Contains(b, p)
  {
    var c := Center(b);
    var dx, dy := p.x - c.x, p.y - c.y;
    SquareNonNegative(dx);
    SquareNonNegative(dy);
    assert SqDist(p, c) == dx * dx + dy * dy;
    SquareBound(dx, 12.5);
    SquareBound(dy, 12.5);
  }

  /** The centre of a box is a gold hit. */
  lemma CenterIsGold(b: Box)
    ensures IsGoldHit(b, Center(b)) && Contains(b, Center(b))
  {
  }

  /** A ball in flight. `pos` starts at the canvas centre and `speed` is the
      displacement per second towards `target`. */
  datatype Ball = Ball(
    note: string,
    startTime: real,
    endTime: Option<real>,
    pos: Vec,
    target: Vec,
    speed: Vec,
    launched: bool,
    hit: bool,
    missed: bool)

  /** The speed that covers the way from `pos` to `target` in the travel time. */
  function TravelSpeed(pos: Vec, target: Vec): Vec {
    Scale(Sub(target, pos), 1.0 / TravelTime)
  }

  /** The `Ball` constructor: at the centre, aimed at `target`, not yet
      launched, hit or missed. */
  function NewBall(c: Canvas, note: string, startTime: real, endTime: Option<real>, target: Vec): (b: Ball)
    ensures b.pos == CanvasCenter(c) && b.target == target
    ensures !b.launched && !b.hit && !b.missed
    ensures Add(b.pos, Scale(b.speed, TravelTime)) == target
  {
    var pos := CanvasCenter(c);
    Ball(note, startTime, endTime, pos, target, TravelSpeed(pos, target), false, false, false)
  }

  /** `Ball.update`: the ball is launched, with its speed recomputed, once
      the clock reaches three seconds before its start time; a launched ball
      that has not been hit moves by its speed times the frame time
      (`deltaMs` milliseconds). */
  function UpdateBall(b: Ball, currentTime: real, deltaMs: real): (r: Ball)
    ensures r.launched <==> b.launched || currentTime >= b.startTime - TravelTime
    ensures r.hit == b.hit && r.missed == b.missed
    ensures r.note == b.note && r.startTime == b.startTime && r.endTime == b.endTime && r.target == b.target
    ensures b.launched ==> r.speed == b.speed
    ensures !b.launched && r.launched ==> r.speed == TravelSpeed(b.pos, b.target)
    ensures r.launched && !r.hit ==> r.pos == Add(b.pos, Scale(r.speed, deltaMs / 1000.0))
    ensures !r.launched || r.hit ==> r.pos == b.pos
  {
    var l := if currentTime >= b.startTime - TravelTime && !b.launched
      then b.(launched := true, speed := TravelSpeed(b.pos, b.target))
      else b;
    if l.launched && !l.hit then l.(pos := Add(l.pos, Scale(l.speed, deltaMs / 1000.0))) else l
  }

  /** `Ball.isOffScreen`: more than a diameter outside the canvas. */
  predicate OffScreen(b: Ball, c: Canvas) {
    || b.pos.x < -BallDiameter
    || b.pos.x > c.width + BallDiameter
    || b.pos.y < -BallDiameter
    || b.pos.y > c.height + BallDiameter
  }

  /** One frame of the game clock: the seconds since the start and the
      milliseconds since the previous frame. */
  datatype Tick = Tick(time: real, deltaMs: real)

  /** The ball after `Ball.update` on each of `ticks` in turn. */
  function Fly(b: Ball, ticks: seq<Tick>): Ball
    decreases |ticks|
  {
    if |ticks| == 0 then b else Fly(UpdateBall(b, ticks[0].time, ticks[0].deltaMs), ticks[1..])
  }

  /** Total frame time, in milliseconds. */
  function ElapsedMs(ticks: seq<Tick>): real
    decreases |ticks|
  {
    if |ticks| == 0 then 0.0 else ticks[0].deltaMs + ElapsedMs(ticks[1..])
  }

  /** Once launched, a ball stays launched, keeps its speed and its hit and
      missed flags, and its position drifts linearly with elapsed time (or
      not at all once hit). */
  lemma {:induction false} FlyDrift(b: Ball, ticks: seq<Tick>)
    requires b.launched
    ensures var r := Fly(b, ticks);
      && r.launched && r.speed == b.speed && r.hit == b.hit && r.missed == b.missed
      && r.pos == (if b.hit then b.pos else Add(b.pos, Scale(b.speed, ElapsedMs(ticks) / 1000.0)))
    decreases |ticks|
  {
    if |ticks| > 0 {
      var next := UpdateBall(b, ticks[0].time, ticks[0].deltaMs);
      FlyDrift(next, ticks[1..]);
    }
  }

  /** A launched ball that is not hit reaches its target exactly when three
      seconds of frames have passed since it was aimed. */
  lemma ReachesTargetAfterTravelTime(b: Ball, ticks: seq<Tick>)
    requires b.launched && !b.hit
    requires b.speed == TravelSpeed(b.pos, b.target)
    requires ElapsedMs(ticks) == 3000.0
    ensures Fly(b, ticks).pos == b.target
  {
    FlyDrift(b, ticks);
  }

  /** A new ball whose first frame is already at or past its launch time
      is launched and aimed in that frame, and, unless hit, sits on its
      target once three seconds of frames have passed. */
  lemma NewBallReachesTarget(c: Canvas, note: string, st: real, et: Option<real>, target: Vec, ticks: seq<Tick>)
    requires |ticks| > 0 && ticks[0].time >= st - TravelTime
    requires ElapsedMs(ticks) == 3000.0
    ensures Fly(NewBall(c, note, st, et, target), ticks).pos == target
  {
    var b := NewBall(c, note, st, et, target);
    var l := b.(launched := true);
    assert UpdateBall(b, ticks[0].time, ticks[0].deltaMs) == UpdateBall(l, ticks[0].time, ticks[0].deltaMs);
    assert Fly(b, ticks) == Fly(l, ticks);
    ReachesTargetAfterTravelTime(l, ticks);
  }

  /** A hit ball never moves again. */
  lemma HitBallStays(b: Ball, ticks: seq<Tick>)
    requires b.launched && b.hit
    ensures Fly(b, ticks).pos == b.pos
  {
    FlyDrift(b, ticks);
  }

  /** Before its launch time a ball stays at the centre and unlaunched. */
  lemma WaitsUntilLaunch(b: Ball, currentTime: real, deltaMs: real)
    requires !b.launched && currentTime < b.startTime - TravelTime
    ensures UpdateBall(b, currentTime, deltaMs) == b
  {
  }
}

=== FILE: framing.dfy ===
/** Fixed-size framing of a sample buffer: the `for (i = 0; i < n; i += size)`
    loops with `slice(i, i + size)` that both detectors use. Frame `j` starts at
    sample `j * size`. */
module Framing {
  import opened Numeric

  /** `slice(start, start + size)`: the last frame may be shorter. */
  function Frame(samples: seq<real>, start: nat, size: nat): (f: seq<real>)
    requires start < |samples| && size > 0
    ensures 0 < |f| <= size
    ensures f == samples[start..Min(start + size, |samples|)]
  {
    samples[start..Min(start + size, |samples|)]
  }

  /** `i / sampleRate`: the time in seconds of sample index `i`. */
  function FrameTime(start: nat, sampleRate: nat): real
    requires sampleRate > 0
  {
    start as real / sampleRate as real
  }

  /** Later samples have strictly later times. */
  lemma FrameTimeStrictlyIncreasing(a: nat, b: nat, sampleRate: nat)
    requires sampleRate > 0 && a < b
    ensures FrameTime(a, sampleRate) < FrameTime(b, sampleRate)
  {
    var r := sampleRate as real;
    assert (b as real - a as real) / r > 0.0;
    assert b as real / r - a as real / r == (b as real - a as real) / r;
  }

  /** The time between starts `a` and `a + size`. */
  lemma FrameTimeStep(a: nat, size: nat, sampleRate: nat)
    requires sampleRate > 0
    ensures FrameTime(a + size, sampleRate) - FrameTime(a, sampleRate) == size as real / sampleRate as real
  {
  }

  /** The start of frame `j + 1` is one frame after the start of frame `j`. */
  lemma NextStart(j: nat, size: nat)
    ensures (j + 1) * size == j * size + size
  {
  }

  /** Starts of later frames are at least one frame further on. */
  lemma {:induction false} StartGap(j: nat, k: nat, size: nat)
    requires j < k
    ensures j * size + size <= k * size
    decreases k - j
  {
    NextStart(j, size);
    if j + 1 < k {
      StartGap(j + 1, k, size);
      NextStart(j + 1, size);
    }
  }
}

=== FILE: hits.dfy ===
/** `checkBoxInteraction`: a tap selects the first box containing it; the
    first ball of that box's note that is neither hit nor missed and lies in
    the box is hit, gold (perfect) when it is within the target circle, and
    a tap on a box with no such ball is a miss. */
module Hits {
  import opened Wrappers
  import opened Entities
  import opened Scoring
  import opened Timing

  /** The `for ... break` over the boxes. */
  function FirstBoxAt(boxes: seq<Box>, p: Vec): (r: Option<nat>)
    ensures r.Some? ==> r.value < |boxes| && Contains(boxes[r.value], p)
    ensures r.Some? ==> forall k :: 0 <= k < r.value ==> !Contains(boxes[k], p)
    ensures r.None? ==> forall k :: 0 <= k < |boxes| ==> !Contains(boxes[k], p)
    decreases |boxes|
  {
    if |boxes| == 0 then None
    else if Contains(boxes[0], p) then Some(0)
    else match FirstBoxAt(boxes[1..], p)
      case None => None
      case Some(k) => Some(k + 1)
  }

  /** The ball test of the tap loop; `launched` is not part of it. */
  predicate Hittable(b: Ball, box: Box) {
    b.note == box.note && !b.hit && !b.missed && Contains(box, b.pos)
  }

  /** The `for ... break` over the balls. */
  function FirstTarget(balls: seq<Ball>, box: Box): (r: Option<nat>)
    ensures r.Some? ==> r.value < |balls| && Hittable(balls[r.value], box)
    ensures r.Some? ==> forall k :: 0 <= k < r.value ==> !Hittable(balls[k], box)
    ensures r.None? ==> forall k :: 0 <= k < |balls| ==> !Hittable(balls[k], box)
    decreases |balls|
  {
    if |balls| == 0 then None
    else if Hittable(balls[0], box) then Some(0)
    else match FirstTarget(balls[1..], box)
      case None => None
      case Some(k) => Some(k + 1)
  }

  /** `checkBoxInteraction(x, y)` on the balls and counters. */
  function Tap(boxes: seq<Box>, f: Field, p: Vec): (r: Field)
    ensures |r.balls| == |f.balls|
    ensures FirstBoxAt(boxes, p).None? ==> r == f
  {
    match FirstBoxAt(boxes, p)
    case None => f
    case Some(k) =>
      match FirstTarget(f.balls, boxes[k])
      case None => Field(f.balls, Miss(f.score))
      case Some(i) =>
        var ball := f.balls[i];
        var s := if IsGoldHit(boxes[k], ball.pos) then Perfect(f.score) else Good(f.score);
        Field(f.balls[i := ball.(hit := true)], s)
  }

  /** What a tap does, case by case: outside every box nothing changes; on a
      box with no hittable ball it is a miss and no ball changes; otherwise
      the first hittable ball of the first box becomes hit (nothing else about
      any ball changes) and it scores perfect exactly when that ball is in
      the gold circle. */
  lemma TapOutcome(boxes: seq<Box>, f: Field, p: Vec)
    ensures var r := Tap(boxes, f, p);
      match FirstBoxAt(boxes, p)
      case None => r == f
      case Some(k) =>
        match FirstTarget(f.balls, boxes[k])
        case None => r == Field(f.balls, Miss(f.score))
        case Some(i) =>
          && r.balls == f.balls[i := f.balls[i].(hit := true)]
          && !f.balls[i].hit
          && (r.score == Perfect(f.score) <==> IsGoldHit(boxes[k], f.balls[i].pos))
          && (r.score == Good(f.score) <==> !IsGoldHit(boxes[k], f.balls[i].pos))
  {
    match FirstBoxAt(boxes, p)
    case None =>
    case Some(k) =>
      match FirstTarget(f.balls, boxes[k])
      case None =>
      case Some(i) =>
        assert Perfect(f.score) != Good(f.score);
  }

  /** Every tap keeps the ledger. */
  lemma TapKeepsLedger(boxes: seq<Box>, f: Field, p: Vec)
    requires Ledger(f.score)
    ensures Ledger(Tap(boxes, f, p).score)
  {
    DeltasKeepLedger(f.score);
  }

  /** A tap changes at most one ball, and only from not hit to hit. */
  lemma TapHitsAtMostOne(boxes: seq<Box>, f: Field, p: Vec)
    ensures var r := Tap(boxes, f, p);
      forall i, j :: 0 <= i < j < |f.balls| && r.balls[i] != f.balls[i] ==> r.balls[j] == f.balls[j]
    ensures var r := Tap(boxes, f, p);
      forall i :: 0 <= i < |f.balls| && r.balls[i] != f.balls[i] ==>
        r.balls[i] == f.balls[i].(hit := true) && !f.balls[i].hit
  {
  }

  /** Gold is judged on where the ball is, not where the tap lands: a tap
      anywhere on a box whose ball sits on the centre scores perfect. */
  lemma GoldJudgedOnBall(box: Box, ball: Ball, p: Vec)
    requires Contains(box, p)
    requires ball.pos == Center(box) && ball.note == box.note && !ball.hit && !ball.missed
    ensures Tap([box], Field([ball], Zero), p).score == Perfect(Zero)
  {
    CenterIsGold(box);
  }

  /** A tap in the box's corner while the ball is at the far edge of the box
      still counts as a hit. */
  lemma AnyBallInTheBoxCounts(box: Box, ball: Ball, p: Vec)
    requires Contains(box, p) && Contains(box, ball.pos)
    requires ball.note == box.note && !ball.hit && !ball.missed
    requires !IsGoldHit(box, ball.pos)
    ensures Tap([box], Field([ball], Zero), p) == Field([ball.(hit := true)], Good(Zero))
  {
  }

  /** Hit resolution does not look at `launched`: a ball still waiting at the
      centre is hit by a tap on a box of its note that covers the centre.
      Between frames no such ball is in play (see `InPlay`). */
  lemma UnlaunchedBallCanBeHit(box: Box, ball: Ball, p: Vec)
    requires Contains(box, p) && Contains(box, ball.pos)
    requires ball.note == box.note && !ball.launched && !ball.hit && !ball.missed
    ensures Tap([box], Field([ball], Zero), p).balls == [ball.(hit := true)]
  {
  }

  /** Taps keep every ball in play launched and not missed. */
  lemma TapKeepsInPlay(boxes: seq<Box>, f: Field, p: Vec)
    requires forall b :: b in f.balls ==> InPlay(b)
    ensures forall b :: b in Tap(boxes, f, p).balls ==> InPlay(b)
  {
    var r := Tap(boxes, f, p);
    forall b | b in r.balls ensures InPlay(b) {
      var i :| 0 <= i < |r.balls| && r.balls[i] == b;
      assert f.balls[i] in f.balls;
    }
  }
}

=== FILE: note_synth.dfy ===
/** `generateGameNotes` and `midiNoteToNoteName`: one chart note per beat,
    lasting until the next beat, named after the pitch estimate closest in
    time to the beat. */
module NoteSynthesizer {
  import opened Wrappers
  import opened Numeric
  import opened Records

  /** The twelve pitch-class names, starting at C. */
  const NoteNames: seq<string> := ["C", "C#", "D", "D#", "E", "F", "F#", "G", "G#", "A", "A#", "B"]

  /** The velocity every chart note carries. */
  const Velocity: int := 100

  /** `notes[midiNote % 12]` with JavaScript's truncating `%`: a negative
      note number that is not a multiple of 12 indexes the table at a
      negative position and reads `undefined`. */
  function MidiNoteToNoteName(m: int): (name: Option<string>)
    ensures m >= 0 ==> name == Some(NoteNames[m % 12])
    ensures m < 0 ==> (name.Some? <==> m % 12 == 0)
    ensures m < 0 && m % 12 == 0 ==> name == Some("C")
  {
    var r := JsRemainder(m, 12);
    if r >= 0 then Some(NoteNames[r]) else None
  }

  /** Notes an octave apart share a name. */
  lemma OctaveInvariant(m: int)
    requires m >= 0
    ensures MidiNoteToNoteName(m + 12) == MidiNoteToNoteName(m)
  {
    assert (m + 12) % 12 == m % 12;
  }

  /** MIDI 69 (A4, 440 Hz) and 81 (A5) are both named A; 60 is C. */
  lemma ConcertPitchNames()
    ensures MidiNoteToNoteName(69) == Some("A")
    ensures MidiNoteToNoteName(81) == Some("A")
    ensures MidiNoteToNoteName(60) == Some("C")
  {
    OctaveInvariant(69);
  }

  /** Distance in time between a pitch estimate and a beat. */
  function Distance(p: PitchSample, t: real): real {
    Abs(p.time - t)
  }

  /** The index `pitches.reduce(...)` settles on, without a seed: it starts
      from the first estimate and switches to a later one only when that is
      strictly closer to `t`. */
  function ClosestIndex(pitches: seq<PitchSample>, t: real): (k: nat)
    requires |pitches| > 0
    ensures k < |pitches|
    ensures forall i :: 0 <= i < |pitches| ==> Distance(pitches[k], t) <= Distance(pitches[i], t)
    ensures forall i :: 0 <= i < k ==> Distance(pitches[k], t) < Distance(pitches[i], t)
    decreases |pitches|
  {
    if |pitches| == 1 then 0
    else
      var last := |pitches| - 1;
      var k := ClosestIndex(pitches[..last], t);
      assert pitches[..last][k] == pitches[k];
      if Distance(pitches[last], t) < Distance(pitches[k], t) then last else k
  }

  /** The estimate `reduce` returns: the earliest of the ones closest to `t`. */
  function Closest(pitches: seq<PitchSample>, t: real): PitchSample
    requires |pitches| > 0
  {
    pitches[ClosestIndex(pitches, t)]
  }

  /** When the closest estimate is unique, that is the one chosen. */
  lemma ClosestUnique(pitches: seq<PitchSample>, t: real, k: nat)
    requires k < |pitches|
    requires forall i :: 0 <= i < |pitches| && i != k ==> Distance(pitches[k], t) < Distance(pitches[i], t)
    ensures Closest(pitches, t) == pitches[k]
  {
  }

  /** Why chart generation cannot produce a chart: `reduce` of an empty
      pitch list throws. */
  datatype NoteError = NoPitchForBeat

  /** The end of the note for beat `i`: the next beat, or one beat period
      after the last one. With a zero tempo that period is `60 / 0`, which
      is `Infinity` in the source and `None` here. */
  function NextBeatTime(beats: seq<Beat>, bpm: int, i: nat): Option<real>
    requires i < |beats|
  {
    if i + 1 < |beats| then Some(beats[i + 1].time)
    else if bpm == 0 then None
    else Some(beats[i].time + 60.0 / bpm as real)
  }

  /** `end - start`, where an infinite end gives an infinite duration. */
  function Until(start: real, end: Option<real>): Option<real> {
    match end
    case None => None
    case Some(e) => Some(e - start)
  }

  /** The chart note for beat `i`; `midiOf` is `frequencyToMidiNote`. */
  function NoteFor(beats: seq<Beat>, pitches: seq<PitchSample>, bpm: int, midiOf: real -> int, i: nat): Note
    requires i < |beats| && |pitches| > 0
  {
    var start := beats[i].time;
    var end := NextBeatTime(beats, bpm, i);
    Note(MidiNoteToNoteName(midiOf(Closest(pitches, start).pitch)), start, Until(start, end), end, Velocity)
  }

  /** `generateGameNotes`: one note per beat, in beat order. It fails only
      where `reduce` throws: some beat but no pitch estimate. */
  function GenerateNotes(beats: seq<Beat>, pitches: seq<PitchSample>, bpm: int, midiOf: real -> int)
    : (r: Result<seq<Note>, NoteError>)
    ensures r.Failure? <==> |beats| > 0 && |pitches| == 0
    ensures r.Success? ==> |r.value| == |beats|
  {
    if |beats| == 0 then Success([])
    else if |pitches| == 0 then Failure(NoPitchForBeat)
    else Success(seq(|beats|, i requires 0 <= i < |beats| => NoteFor(beats, pitches, bpm, midiOf, i)))
  }

  /** Note `i` of the chart belongs to beat `i`: it starts at the beat, ends
      at the next beat (one beat period after the last beat, or never with a
      zero tempo), lasts the difference, has velocity 100 and is named after
      the closest estimate. */
  lemma GeneratedNote(beats: seq<Beat>, pitches: seq<PitchSample>, bpm: int, midiOf: real -> int, i: nat)
    requires GenerateNotes(beats, pitches, bpm, midiOf).Success?
    requires i < |beats|
    ensures var n := GenerateNotes(beats, pitches, bpm, midiOf).value[i];
      && n.startTime == beats[i].time
      && n.endTime == (if i + 1 < |beats| then Some(beats[i + 1].time)
                       else if bpm == 0 then None
                       else Some(beats[i].time + 60.0 / bpm as real))
      && (n.endTime.None? ==> n.duration.None?)
      && (n.endTime.Some? ==> n.duration == Some(n.endTime.value - n.startTime))
      && n.velocity == 100
      && n.note == MidiNoteToNoteName(midiOf(Closest(pitches, beats[i].time).pitch))
  {
  }

  /** Only the last note can lack an end, and it does exactly when the tempo
      is 0; the duration is missing exactly when the end is. */
  lemma OpenEndExactlyAtZeroTempo(beats: seq<Beat>, pitches: seq<PitchSample>, bpm: int, midiOf: real -> int)
    requires GenerateNotes(beats, pitches, bpm, midiOf).Success?
    ensures var notes := GenerateNotes(beats, pitches, bpm, midiOf).value;
      && (forall i :: 0 <= i < |notes| - 1 ==> notes[i].endTime.Some?)
      && (forall i :: 0 <= i < |notes| ==> (notes[i].duration.None? <==> notes[i].endTime.None?))
      && (|notes| > 0 ==> (notes[|notes| - 1].endTime.None? <==> bpm == 0))
  {
  }

  /** Notes start on their beats. */
  lemma NotesStartOnBeats(beats: seq<Beat>, pitches: seq<PitchSample>, bpm: int, midiOf: real -> int)
    requires GenerateNotes(beats, pitches, bpm, midiOf).Success?
    ensures var notes := GenerateNotes(beats, pitches, bpm, midiOf).value;
      && |notes| == |beats|
      && forall i :: 0 <= i < |notes| ==> notes[i].startTime == beats[i].time
  {
    var notes := GenerateNotes(beats, pitches, bpm, midiOf).value;
    forall i | 0 <= i < |notes|
      ensures notes[i].startTime == beats[i].time
    {
      GeneratedNote(beats, pitches, bpm, midiOf, i);
    }
  }

  /** No beats, no notes, whatever else is known. */
  lemma NoBeatsNoNotes(pitches: seq<PitchSample>, bpm: int, midiOf: real -> int)
    ensures GenerateNotes([], pitches, bpm, midiOf) == Success([])
  {
  }

  /** Consecutive notes abut: each ends where the next begins, and the last
      lasts one beat period (without end at a zero tempo). */
  lemma NotesAbut(beats: seq<Beat>, pitches: seq<PitchSample>, bpm: int, midiOf: real -> int)
    requires GenerateNotes(beats, pitches, bpm, midiOf).Success?
    ensures var notes := GenerateNotes(beats, pitches, bpm, midiOf).value;
      && (forall i :: 0 <= i < |notes| - 1 ==> notes[i].endTime == Some(notes[i + 1].startTime))
      && (|notes| > 0 ==>
            notes[|notes| - 1].duration == (if bpm == 0 then None else Some(60.0 / bpm as real)))
  {
    var notes := GenerateNotes(beats, pitches, bpm, midiOf).value;
    forall i | 0 <= i < |notes| - 1
      ensures notes[i].endTime == Some(notes[i + 1].startTime)
    {
      GeneratedNote(beats, pitches, bpm, midiOf, i);
      GeneratedNote(beats, pitches, bpm, midiOf, i + 1);
    }
    if |notes| > 0 {
      GeneratedNote(beats, pitches, bpm, midiOf, |notes| - 1);
    }
  }

  /** Strictly increasing beats and a tempo of at least 0 give notes in
      strictly increasing order, each of positive length where it has one. */
  lemma NotesOrdered(beats: seq<Beat>, pitches: seq<PitchSample>, bpm: int, midiOf: real -> int)
    requires |pitches| > 0 && bpm >= 0
    requires forall i :: 0 <= i < |beats| - 1 ==> beats[i].time < beats[i + 1].time
    ensures var notes := GenerateNotes(beats, pitches, bpm, midiOf).value;
      && (forall i :: 0 <= i < |notes| && notes[i].duration.Some? ==> notes[i].duration.value > 0.0)
      && (forall i :: 0 <= i < |notes| - 1 ==> notes[i].startTime < notes[i + 1].startTime)
  {
    var notes := GenerateNotes(beats, pitches, bpm, midiOf).value;
    forall i | 0 <= i < |notes| && notes[i].duration.Some?
      ensures notes[i].duration.value > 0.0
    {
      if i + 1 == |notes| {
        DivAtLeast(60.0, bpm as real, 0.0);
        QuotientZero(60.0, bpm as real);
      }
    }
  }

  /** The note names come from the estimate nearest the beat: no estimate is
      closer in time to the beat than the one the note is named after. */
  lemma NotesNamedByNearestPitch(beats: seq<Beat>, pitches: seq<PitchSample>, bpm: int, midiOf: real -> int, i: nat)
    requires GenerateNotes(beats, pitches, bpm, midiOf).Success?
    requires i < |beats|
    ensures exists k :: (
              && 0 <= k < |pitches|
              && GenerateNotes(beats, pitches, bpm, midiOf).value[i].note == MidiNoteToNoteName(midiOf(pitches[k].pitch))
              && forall q :: 0 <= q < |pitches| ==> Distance(pitches[k], beats[i].time) <= Distance(pitches[q], beats[i].time))
  {
    var k := ClosestIndex(pitches, beats[i].time);
    assert GenerateNotes(beats, pitches, bpm, midiOf).value[i].note == MidiNoteToNoteName(midiOf(pitches[k].pitch));
  }

  /** A single beat at 120 BPM gives one half-second note. */
  lemma SingleBeatAt120(t: real, p: PitchSample, midiOf: real -> int)
    ensures var r := GenerateNotes([Beat(t)], [p], 120, midiOf);
      && r.Success?
      && r.value == [Note(MidiNoteToNoteName(midiOf(p.pitch)), t, Some(0.5), Some(t + 0.5), 100)]
  {
    var r := GenerateNotes([Beat(t)], [p], 120, midiOf);
    assert r.value[0] == Note(MidiNoteToNoteName(midiOf(p.pitch)), t, Some(0.5), Some(t + 0.5), 100);
  }
}

=== FILE: numeric.dfy ===
/** Arithmetic helpers standing in for the JavaScript `Math` functions and
    for the `reduce` sums the source uses. All arithmetic is exact over `real`. */
module Numeric {

  function Abs(x: real): (r: real)
    ensures r >= 0.0
    ensures r == x || r == -x
  {
    if x < 0.0 then -x else x
  }

  function Min(a: int, b: int): (r: int)
    ensures r <= a && r <= b
    ensures r == a || r == b
  {
    if a < b then a else b
  }

  /** `Math.round`: the nearest integer, halves rounded towards +infinity. */
  function Round(x: real): (r: int)
    ensures x - 0.5 < r as real <= x + 0.5
  {
    (x + 0.5).Floor
  }

  /** Halves round up, as `Math.round` does. */
  lemma RoundHalfUp(n: int)
    ensures Round(n as real + 0.5) == n + 1
  {
  }

  /** JavaScript's `%`: the remainder truncated towards zero, so it takes the
      sign of the dividend (unlike Dafny's Euclidean `%`). */
  function JsRemainder(a: int, b: int): (r: int)
    requires b > 0
    ensures -b < r < b
    ensures a >= 0 ==> r >= 0
    ensures a <= 0 ==> r <= 0
    ensures (a - r) % b == 0
  {
    if a >= 0 then
      var q := a / b;
      assert a - a % b == q * b;
      MultipleMod(q, b);
      a % b
    else
      var q := (-a) / b;
      assert a + (-a) % b == (-q) * b;
      MultipleMod(-q, b);
      -((-a) % b)
  }

  /** `k` copies of a positive `b` add up to at least `b`. */
  lemma {:induction false} MulAtLeast(k: nat, b: int)
    requires k >= 1 && b > 0
    ensures k * b >= b
    decreases k
  {
    if k > 1 {
      MulAtLeast(k - 1, b);
      assert k * b == (k - 1) * b + b;
    }
  }

  /** A multiple of `b` leaves no remainder. */
  lemma MultipleMod(q: int, b: int)
    requires b > 0
    ensures (q * b) % b == 0
  {
    var d := (q * b) / b;
    var m := (q * b) % b;
    assert q * b == d * b + m;
    assert (q - d) * b == m;
    if q - d > 0 {
      MulAtLeast(q - d, b);
    } else if q - d < 0 {
      MulAtLeast(d - q, b);
    }
  }

  /** Left-to-right sum, the `reduce((sum, e) => sum + e, 0)` of the source. */
  function Sum(s: seq<real>): real
    decreases |s|
  {
    if |s| == 0 then 0.0 else Sum(s[..|s| - 1]) + s[|s| - 1]
  }

  /** Arithmetic mean of a non-empty sequence. */
  function Mean(s: seq<real>): real
    requires |s| > 0
  {
    Sum(s) / |s| as real
  }

  ghost predicate AllNonNegative(s: seq<real>) {
    forall i :: 0 <= i < |s| ==> s[i] >= 0.0
  }

  lemma {:induction false} SumNonNegative(s: seq<real>)
    requires AllNonNegative(s)
    ensures Sum(s) >= 0.0
    decreases |s|
  {
    if |s| > 0 {
      SumNonNegative(s[..|s| - 1]);
    }
  }

  /** A sum of non-negative terms vanishes exactly when every term does. */
  lemma {:induction false} SumZeroIff(s: seq<real>)
    requires AllNonNegative(s)
    ensures Sum(s) == 0.0 <==> forall i :: 0 <= i < |s| ==> s[i] == 0.0
    decreases |s|
  {
    if |s| > 0 {
      var init := s[..|s| - 1];
      SumZeroIff(init);
      SumNonNegative(init);
      assert forall i :: 0 <= i < |init| ==> init[i] == s[i];
    }
  }

  /** Terms bounded by `c` sum to at most `|s| * c`. */
  lemma {:induction false} SumBounded(s: seq<real>, c: real)
    requires forall i :: 0 <= i < |s| ==> s[i] <= c
    ensures Sum(s) <= |s| as real * c
    decreases |s|
  {
    if |s| > 0 {
      SumBounded(s[..|s| - 1], c);
    }
  }

  lemma MeanNonNegative(s: seq<real>)
    requires |s| > 0 && AllNonNegative(s)
    ensures Mean(s) >= 0.0
  {
    SumNonNegative(s);
  }

  /** Dividing by a quotient multiplies by its divisor. */
  lemma DivByQuotient(a: real, b: real, c: real)
    requires b != 0.0 && c != 0.0
    ensures a / (b / c) == a * c / b
  {
    var q := b / c;
    assert q * c == b;
    var r := a / q;
    assert r * q == a;
    assert r * b == a * c by {
      assert r * b == r * (q * c);
      assert r * (q * c) == (r * q) * c;
    }
  }

  lemma MulPositive(x: real, y: real)
    requires x > 0.0 && y > 0.0
    ensures x * y > 0.0
  {
  }

  /** An upper bound on a quotient by a positive divisor. */
  lemma DivAtMost(p: real, s: real, k: real)
    requires s > 0.0 && p <= k * s
    ensures p / s <= k
  {
    var x := p / s;
    assert x * s == p;
    if x > k {
      MulPositive(x - k, s);
    }
  }

  /** A quotient by a positive divisor vanishes exactly with its dividend. */
  lemma QuotientZero(p: real, s: real)
    requires s > 0.0
    ensures p / s == 0.0 <==> p == 0.0
  {
    var x := p / s;
    assert x * s == p;
    if x == 0.0 {
      assert p == 0.0 * s;
    }
  }

  lemma MulNegative(x: real, y: real)
    requires x < 0.0 && y < 0.0
    ensures x * y > 0.0
  {
  }

  lemma SquarePositive(x: real)
    requires x != 0.0
    ensures x * x > 0.0
  {
    if x < 0.0 {
      MulNegative(x, x);
    } else {
      MulPositive(x, x);
    }
  }

  /** A strict upper bound on a quotient by a positive divisor. */
  lemma DivBelow(p: real, s: real, k: real)
    requires s > 0.0 && p < k * s
    ensures p / s < k
  {
    var x := p / s;
    assert x * s == p;
    if x >= k {
      if x > k {
        MulPositive(x - k, s);
      }
    }
  }

  /** A lower bound on a quotient by a positive divisor. */
  lemma DivAtLeast(p: real, s: real, k: real)
    requires s > 0.0 && p >= k * s
    ensures p / s >= k
  {
    var x := p / s;
    assert x * s == p;
    if x < k {
      MulPositive(k - x, s);
    }
  }
}

=== FILE: pitch_extractor.dfy ===
/** `detectPitches`: the buffer is cut into 50 ms chunks and the pitch
    estimator (YIN in the source) is asked for each chunk's frequency; a
    chunk is recorded, with its start time, when the answer is truthy. */
module PitchExtractor {
  import opened Wrappers
  import opened Framing
  import opened Records

  /** `Math.floor(sampleRate / 20)`: samples per 50 ms chunk. */
  function ChunkSize(sampleRate: nat): nat {
    sampleRate / 20
  }

  /** The pitch estimator: a frequency in Hz for a chunk, or nothing. */
  type PitchOracle = seq<real> -> Option<real>

  /** JavaScript truthiness of the estimator's answer: present and non-zero. */
  predicate Truthy(answer: Option<real>) {
    answer.Some? && answer.value != 0.0
  }

  /** Chunk `j` of the buffer. */
  function ChunkAt(samples: seq<real>, sampleRate: nat, j: nat): seq<real>
    requires sampleRate >= 20 && j * ChunkSize(sampleRate) < |samples|
  {
    Frame(samples, j * ChunkSize(sampleRate), ChunkSize(sampleRate))
  }

  /** The start time of chunk `j`: a multiple of `chunkSize / sampleRate`. */
  function ChunkTime(sampleRate: nat, j: nat): real
    requires sampleRate >= 20
  {
    FrameTime(j * ChunkSize(sampleRate), sampleRate)
  }

  lemma ChunkTimeIncreasing(sampleRate: nat, j: nat)
    requires sampleRate >= 20
    ensures ChunkTime(sampleRate, j) < ChunkTime(sampleRate, j + 1)
  {
    NextStart(j, ChunkSize(sampleRate));
    FrameTimeStrictlyIncreasing(j * ChunkSize(sampleRate), (j + 1) * ChunkSize(sampleRate), sampleRate);
  }

  /** `p` is what the loop records for chunk `j`. */
  ghost predicate RecordedFor(samples: seq<real>, sampleRate: nat, detect: PitchOracle, j: nat, p: PitchSample)
    requires sampleRate >= 20
  {
    && j * ChunkSize(sampleRate) < |samples|
    && Truthy(detect(ChunkAt(samples, sampleRate, j)))
    && p == PitchSample(ChunkTime(sampleRate, j), detect(ChunkAt(samples, sampleRate, j)).value)
  }

  /** `p` is what the loop records for some chunk. */
  ghost predicate Recorded(samples: seq<real>, sampleRate: nat, detect: PitchOracle, p: PitchSample)
    requires sampleRate >= 20
  {
    exists f: nat :: RecordedFor(samples, sampleRate, detect, f, p)
  }

  /** Every sample in `ps` is what the loop records for some chunk. */
  ghost predicate AllRecorded(samples: seq<real>, sampleRate: nat, detect: PitchOracle, ps: seq<PitchSample>)
    requires sampleRate >= 20
  {
    forall k :: 0 <= k < |ps| ==> Recorded(samples, sampleRate, detect, ps[k])
  }

  lemma AllRecordedCons(samples: seq<real>, sampleRate: nat, detect: PitchOracle, j: nat, p: PitchSample, rest: seq<PitchSample>)
    requires sampleRate >= 20
    requires RecordedFor(samples, sampleRate, detect, j, p)
    requires AllRecorded(samples, sampleRate, detect, rest)
    ensures AllRecorded(samples, sampleRate, detect, [p] + rest)
  {
    var ps := [p] + rest;
    forall k | 0 <= k < |ps|
      ensures Recorded(samples, sampleRate, detect, ps[k])
    {
      if k == 0 {
        assert RecordedFor(samples, sampleRate, detect, j, ps[k]);
      } else {
        assert ps[k] == rest[k - 1];
      }
    }
  }

  /** The loop of `detectPitches` from chunk `j` on. */
  function PitchesFrom(samples: seq<real>, sampleRate: nat, detect: PitchOracle, j: nat): seq<PitchSample>
    requires sampleRate >= 20
    decreases |samples| - j * ChunkSize(sampleRate)
  {
    var cs := ChunkSize(sampleRate);
    if j * cs >= |samples| then []
    else
      NextStart(j, cs);
      var answer := detect(ChunkAt(samples, sampleRate, j));
      var rest := PitchesFrom(samples, sampleRate, detect, j + 1);
      if Truthy(answer) then [PitchSample(ChunkTime(sampleRate, j), answer.value)] + rest else rest
  }

  /** One more iteration of the loop while chunk `j` lies in the buffer. */
  lemma PitchesFromUnfold(samples: seq<real>, sampleRate: nat, detect: PitchOracle, j: nat)
    requires sampleRate >= 20 && j * ChunkSize(sampleRate) < |samples|
    ensures PitchesFrom(samples, sampleRate, detect, j) ==
      var answer := detect(ChunkAt(samples, sampleRate, j));
      var rest := PitchesFrom(samples, sampleRate, detect, j + 1);
      if Truthy(answer) then [PitchSample(ChunkTime(sampleRate, j), answer.value)] + rest else rest
  {
  }

  /** Every sample the loop records from chunk `j` on is what it records for
      some chunk. */
  lemma {:induction false} PitchesFromSound(samples: seq<real>, sampleRate: nat, detect: PitchOracle, j: nat)
    requires sampleRate >= 20
    ensures AllRecorded(samples, sampleRate, detect, PitchesFrom(samples, sampleRate, detect, j))
    decreases |samples| - j * ChunkSize(sampleRate)
  {
    var cs := ChunkSize(sampleRate);
    if j * cs < |samples| {
      NextStart(j, cs);
      PitchesFromUnfold(samples, sampleRate, detect, j);
      PitchesFromSound(samples, sampleRate, detect, j + 1);
      var ps := PitchesFrom(samples, sampleRate, detect, j);
      var rest := PitchesFrom(samples, sampleRate, detect, j + 1);
      var answer := detect(ChunkAt(samples, sampleRate, j));
      if Truthy(answer) {
        assert ps == [PitchSample(ChunkTime(sampleRate, j), answer.value)] + rest;
        AllRecordedCons(samples, sampleRate, detect, j, ps[0], rest);
      } else {
        assert ps == rest;
      }
    } else {
      assert PitchesFrom(samples, sampleRate, detect, j) == [];
    }
  }

  /** The loop records from chunk `j` on in strictly increasing time order,
      no earlier than chunk `j`. */
  lemma {:induction false} PitchesFromOrdered(samples: seq<real>, sampleRate: nat, detect: PitchOracle, j: nat)
    requires sampleRate >= 20
    ensures forall k :: 0 <= k < |PitchesFrom(samples, sampleRate, detect, j)| ==>
              ChunkTime(sampleRate, j) <= PitchesFrom(samples, sampleRate, detect, j)[k].time
    ensures forall k, l :: 0 <= k < l < |PitchesFrom(samples, sampleRate, detect, j)| ==>
              PitchesFrom(samples, sampleRate, detect, j)[k].time < PitchesFrom(samples, sampleRate, detect, j)[l].time
    decreases |samples| - j * ChunkSize(sampleRate)
  {
    var cs := ChunkSize(sampleRate);
    if j * cs < |samples| {
      NextStart(j, cs);
      PitchesFromUnfold(samples, sampleRate, detect, j);
      ChunkTimeIncreasing(sampleRate, j);
      PitchesFromOrdered(samples, sampleRate, detect, j + 1);
    }
  }

  /** The loop records every chunk from `j` on with a truthy estimate. */
  lemma {:induction false} PitchesFromComplete(samples: seq<real>, sampleRate: nat, detect: PitchOracle, j: nat, f: nat)
    requires sampleRate >= 20
    requires j <= f && f * ChunkSize(sampleRate) < |samples|
    requires Truthy(detect(ChunkAt(samples, sampleRate, f)))
    ensures exists k :: 0 <= k < |PitchesFrom(samples, sampleRate, detect, j)|
              && PitchesFrom(samples, sampleRate, detect, j)[k].time == ChunkTime(sampleRate, f)
    decreases |samples| - j * ChunkSize(sampleRate)
  {
    var cs := ChunkSize(sampleRate);
    var ps := PitchesFrom(samples, sampleRate, detect, j);
    PitchesFromUnfold(samples, sampleRate, detect, j);
    if j == f {
      assert ps[0].time == ChunkTime(sampleRate, f);
    } else {
      StartGap(j, f, cs);
      NextStart(j, cs);
      PitchesFromComplete(samples, sampleRate, detect, j + 1, f);
      var rest := PitchesFrom(samples, sampleRate, detect, j + 1);
      var k :| 0 <= k < |rest| && rest[k].time == ChunkTime(sampleRate, f);
      if Truthy(detect(ChunkAt(samples, sampleRate, j))) {
        assert ps[k + 1] == rest[k];
      } else {
        assert ps[k] == rest[k];
      }
    }
  }

  /** `detectPitches`. */
  function DetectPitches(samples: seq<real>, sampleRate: nat, detect: PitchOracle): seq<PitchSample>
    requires sampleRate >= 20
  {
    PitchesFrom(samples, sampleRate, detect, 0)
  }

  /** `detectPitches` records one sample per chunk with a truthy estimate,
      carrying that estimate and the chunk's start time, in strictly
      increasing time order, and nothing else. */
  lemma DetectPitchesCharacterized(samples: seq<real>, sampleRate: nat, detect: PitchOracle)
    requires sampleRate >= 20
    ensures AllRecorded(samples, sampleRate, detect, DetectPitches(samples, sampleRate, detect))
    ensures forall k, l :: 0 <= k < l < |DetectPitches(samples, sampleRate, detect)| ==>
              DetectPitches(samples, sampleRate, detect)[k].time < DetectPitches(samples, sampleRate, detect)[l].time
    ensures forall f: nat :: (f * ChunkSize(sampleRate) < |samples|
                              && Truthy(detect(ChunkAt(samples, sampleRate, f)))) ==>
              exists k :: 0 <= k < |DetectPitches(samples, sampleRate, detect)|
                && DetectPitches(samples, sampleRate, detect)[k].time == ChunkTime(sampleRate, f)
  {
    var ps := DetectPitches(samples, sampleRate, detect);
    PitchesFromSound(samples, sampleRate, detect, 0);
    PitchesFromOrdered(samples, sampleRate, detect, 0);
    forall f: nat | f * ChunkSize(sampleRate) < |samples| && Truthy(detect(ChunkAt(samples, sampleRate, f)))
      ensures exists k :: 0 <= k < |PitchesFrom(samples, sampleRate, detect, 0)|
                && PitchesFrom(samples, sampleRate, detect, 0)[k].time == ChunkTime(sampleRate, f)
    {
      PitchesFromComplete(samples, sampleRate, detect, 0, f);
    }
  }

  /** `detectPitches` finds nothing exactly when the estimator has no
      truthy answer for any chunk of the buffer. */
  lemma NoPitchesIffSilent(samples: seq<real>, sampleRate: nat, detect: PitchOracle)
    requires sampleRate >= 20
    ensures DetectPitches(samples, sampleRate, detect) == [] <==>
      forall f: nat :: f * ChunkSize(sampleRate) < |samples| ==> !Truthy(detect(ChunkAt(samples, sampleRate, f)))
  {
    var ps := DetectPitches(samples, sampleRate, detect);
    DetectPitchesCharacterized(samples, sampleRate, detect);
    if |ps| > 0 {
      assert Recorded(samples, sampleRate, detect, ps[0]);
    }
  }
}

=== FILE: records.dfy ===
/** The records the chart generator produces and the game consumes. */
module Records {
  import opened Wrappers

  /** A detected onset, in seconds from the start of the song. */
  datatype Beat = Beat(time: real)

  /** A pitch estimate for the chunk starting at `time`; `pitch` is the
      estimator's frequency in Hz. */
  datatype PitchSample = PitchSample(time: real, pitch: real)

  /** One entry of the chart's `notes` array. `note` is the pitch-class name,
      or `None` where the source stores `undefined`. `duration` and `endTime`
      are `None` where the source computes `Infinity`, which the song-data
      file holds as `null`. */
  datatype Note = Note(note: Option<string>, startTime: real, duration: Option<real>, endTime: Option<real>, velocity: int)

  /** The onset times of a beat sequence. */
  function Times(beats: seq<Beat>): (ts: seq<real>)
    ensures |ts| == |beats|
    ensures forall i :: 0 <= i < |beats| ==> ts[i] == beats[i].time
  {
    seq(|beats|, i requires 0 <= i < |beats| => beats[i].time)
  }

  /** Each beat is more than `gap` seconds after every earlier one. */
  ghost predicate SpacedBy(beats: seq<Beat>, gap: real) {
    forall a, b :: 0 <= a < b < |beats| ==> beats[b].time - beats[a].time > gap
  }
}

=== FILE: scoring.dfy ===
/** The four score counters of the game and the deltas a miss, a good hit
    and a perfect hit apply to them. */
module Scoring {

  datatype Score = Score(points: int, misses: nat, goodHits: nat, perfectHits: nat)

  /** The counters when the page loads. */
  const Zero: Score := Score(0, 0, 0, 0)

  const PerfectPoints: int := 5
  const GoodPoints: int := 1
  const MissPenalty: int := 1

  /** The points are exactly what the counted events are worth. */
  predicate Ledger(s: Score) {
    s.points == PerfectPoints * s.perfectHits + GoodPoints * s.goodHits - MissPenalty * s.misses
  }

  /** `score -= 1; misses++`: a missed ball or a tap that hits nothing. */
  function Miss(s: Score): (r: Score)
    ensures r.misses == s.misses + 1 && r.goodHits == s.goodHits && r.perfectHits == s.perfectHits
    ensures r.points == s.points - 1
  {
    Score(s.points - MissPenalty, s.misses + 1, s.goodHits, s.perfectHits)
  }

  /** `score += 1; goodHits++`. */
  function Good(s: Score): (r: Score)
    ensures r.goodHits == s.goodHits + 1 && r.misses == s.misses && r.perfectHits == s.perfectHits
    ensures r.points == s.points + 1
  {
    Score(s.points + GoodPoints, s.misses, s.goodHits + 1, s.perfectHits)
  }

  /** `score += 5; perfectHits++`. */
  function Perfect(s: Score): (r: Score)
    ensures r.perfectHits == s.perfectHits + 1 && r.misses == s.misses && r.goodHits == s.goodHits
    ensures r.points == s.points + 5
  {
    Score(s.points + PerfectPoints, s.misses, s.goodHits, s.perfectHits + 1)
  }

  /** `n` misses in a row. */
  function MissTimes(s: Score, n: nat): (r: Score)
    decreases n
  {
    if n == 0 then s else MissTimes(Miss(s), n - 1)
  }

  lemma ZeroLedger()
    ensures Ledger(Zero)
  {
  }

  /** Every delta keeps the ledger. */
  lemma DeltasKeepLedger(s: Score)
    requires Ledger(s)
    ensures Ledger(Miss(s)) && Ledger(Good(s)) && Ledger(Perfect(s))
  {
  }

  /** `n` misses cost `n` points and keep the ledger. */
  lemma {:induction false} MissTimesEffect(s: Score, n: nat)
    ensures var r := MissTimes(s, n);
      && r.points == s.points - n && r.misses == s.misses + n
      && r.goodHits == s.goodHits && r.perfectHits == s.perfectHits
      && (Ledger(s) ==> Ledger(r))
    decreases n
  {
    if n > 0 {
      MissTimesEffect(Miss(s), n - 1);
    }
  }

  /** Under the ledger the points lie between minus the misses and five
      times the hits. */
  lemma LedgerBounds(s: Score)
    requires Ledger(s)
    ensures -(s.misses as int) <= s.points <= 5 * (s.goodHits + s.perfectHits)
  {
  }
}

=== FILE: sequences.dfy ===
/** Sequence relations shared by the filters of the model. */
module Sequences {

  /** `xs` is obtained from `ys` by deleting elements, keeping order. */
  predicate IsSubsequence<T(==)>(xs: seq<T>, ys: seq<T>)
    decreases |ys|
  {
    || |xs| == 0
    || (&& |ys| > 0
        && (|| (xs[0] == ys[0] && IsSubsequence(xs[1..], ys[1..]))
            || IsSubsequence(xs, ys[1..])))
  }

  /** Dropping the head commutes with appending at the end. */
  lemma DropFirstOfSnoc<T>(s: seq<T>, x: T)
    requires |s| > 0
    ensures (s + [x])[1..] == s[1..] + [x]
  {
  }

  /** Differences of consecutive terms: `s[1]-s[0], s[2]-s[1], ...`. */
  function Differences(s: seq<real>): (d: seq<real>)
    requires |s| > 0
    ensures |d| == |s| - 1
    ensures forall i :: 0 <= i < |d| ==> d[i] == s[i + 1] - s[i]
  {
    seq(|s| - 1, i requires 0 <= i < |s| - 1 => s[i + 1] - s[i])
  }
}

=== FILE: session.dfy ===
/** The sketch's event handlers around the game: the song configuration
    arriving (`gotSongConfig`), a press or touch (`mousePressed`,
    `touchStarted`) and an animation frame (`draw`). The clock (`millis()`)
    and the frame time (`deltaTime`) arrive with the events. */
module Session {
  import opened Records
  import opened Sequences
  import opened Entities
  import opened Scoring
  import opened Timing
  import opened Hits
  import opened Difficulty

  /** The sketch's global state, apart from drawing resources. */
  datatype Game = Game(
    canvas: Canvas,
    boxes: seq<Box>,
    play: Play,
    started: bool,
    buttonVisible: bool,
    startMillis: real,
    difficulty: string)

  /** The state after `setup`: no chart, no balls, zero counters, the game
      not started and the start button hidden. */
  function Initial(c: Canvas, boxes: seq<Box>): Game {
    Game(c, boxes, Play([], [], Zero), false, false, 0.0, "easy")
  }

  datatype Event =
    | ConfigLoaded(notes: seq<Note>)
    | Press(x: real, y: real, nowMs: real)
    | Frame(nowMs: real, deltaMs: real)

  /** The 100 × 50 start button centred on the canvas, edges excluded. */
  predicate OnStartButton(c: Canvas, x: real, y: real) {
    && c.width / 2.0 - 50.0 < x < c.width / 2.0 + 50.0
    && c.height / 2.0 - 25.0 < y < c.height / 2.0 + 25.0
  }

  /** Seconds since the start at `nowMs`, as `updateGame` computes them. */
  function GameTime(g: Game, nowMs: real): real {
    (nowMs - g.startMillis) / 1000.0
  }

  /** One event handler. */
  function Handle(g: Game, e: Event): Game {
    match e
    case ConfigLoaded(notes) =>
      g.(play := g.play.(queue := SetDifficulty(g.difficulty, notes)), buttonVisible := true)
    case Press(x, y, nowMs) =>
      if g.buttonVisible then
        if OnStartButton(g.canvas, x, y) then g.(started := true, buttonVisible := false, startMillis := nowMs)
        else g
      else if g.started then
        var f := Tap(g.boxes, Field(g.play.balls, g.play.score), Vec(x, y));
        g.(play := Play(g.play.queue, f.balls, f.score))
      else g
    case Frame(nowMs, deltaMs) =>
      if g.started then g.(play := UpdateGame(g.canvas, g.boxes, g.play, GameTime(g, nowMs), deltaMs))
      else g
  }

  /** The events handled in order. */
  function Run(g: Game, events: seq<Event>): Game
    decreases |events|
  {
    if |events| == 0 then g else Run(Handle(g, events[0]), events[1..])
  }

  /** No handler changes the canvas, the boxes or the difficulty. */
  lemma HandleKeepsLayout(g: Game, e: Event)
    ensures var h := Handle(g, e);
      h.canvas == g.canvas && h.boxes == g.boxes && h.difficulty == g.difficulty
  {
  }

  /** The game starts exactly on a press inside the visible start button,
      which then hides and records the press time as the start. */
  lemma StartsOnButtonPress(g: Game, e: Event)
    requires !g.started
    ensures Handle(g, e).started <==> g.buttonVisible && e.Press? && OnStartButton(g.canvas, e.x, e.y)
    ensures Handle(g, e).started ==> !Handle(g, e).buttonVisible && Handle(g, e).startMillis == e.nowMs
  {
  }

  /** Once started, the game stays started. */
  lemma {:induction false} StartedStays(g: Game, events: seq<Event>)
    requires g.started
    ensures Run(g, events).started
    decreases |events|
  {
    if |events| > 0 {
      StartedStays(Handle(g, events[0]), events[1..]);
    }
  }

  /** Until the game starts, no ball appears and the counters stay put: frames
      draw only the button and presses only look for it. */
  lemma {:induction false} IdleUntilStarted(g: Game, events: seq<Event>)
    requires !Run(g, events).started
    ensures Run(g, events).play.balls == g.play.balls && Run(g, events).play.score == g.play.score
    decreases |events|
  {
    if |events| > 0 {
      var h := Handle(g, events[0]);
      if h.started {
        StartedStays(h, events[1..]);
      }
      IdleUntilStarted(h, events[1..]);
    }
  }

  /** A press while the game runs with the button hidden is a tap at the
      press position: it changes the balls and counters exactly as the tap
      does and nothing else. Any other press leaves balls and counters
      alone, so a changed score means such a tap. */
  lemma PressScores(g: Game, x: real, y: real, nowMs: real)
    ensures g.started && !g.buttonVisible ==>
      var f := Tap(g.boxes, Field(g.play.balls, g.play.score), Vec(x, y));
      Handle(g, Press(x, y, nowMs)) == g.(play := Play(g.play.queue, f.balls, f.score))
    ensures !(g.started && !g.buttonVisible) ==> Handle(g, Press(x, y, nowMs)).play == g.play
    ensures var h := Handle(g, Press(x, y, nowMs));
      h.play.score != g.play.score ==>
        && g.started && !g.buttonVisible
        && h.play.score == Tap(g.boxes, Field(g.play.balls, g.play.score), Vec(x, y)).score
  {
  }

  /** The configuration replaces the chart by its thinned copy: a
      subsequence of the loaded notes with strictly increasing whole
      seconds, none before second 0. */
  lemma ConfigThinsChart(g: Game, notes: seq<Note>)
    ensures var q := Handle(g, ConfigLoaded(notes)).play.queue;
      && IsSubsequence(q, notes)
      && (forall i :: 0 <= i < |q| ==> Second(q[i]) >= 0)
      && (forall i, j :: 0 <= i < j < |q| ==> Second(q[i]) < Second(q[j]))
    ensures Handle(g, ConfigLoaded(notes)).buttonVisible
  {
  }

  /** A running frame launches the next note of the chart exactly when the
      clock is within the travel time of its start: `nowMs` is at least
      `startMillis + 1000 × (startTime − 3)`. */
  lemma FrameLaunchesOnTime(g: Game, nowMs: real, deltaMs: real)
    requires g.started && |g.play.queue| > 0
    ensures |Handle(g, Frame(nowMs, deltaMs)).play.queue| < |g.play.queue| <==>
      nowMs - g.startMillis >= 1000.0 * (g.play.queue[0].startTime - TravelTime)
  {
    var t := GameTime(g, nowMs);
    var r := Launch(g.canvas, g.boxes, g.play.queue, t);
    assert |r.queue| == |g.play.queue| ==> r.queue == g.play.queue;
  }

  /** What every reachable state satisfies: the counters keep their ledger
      and every ball on the field is launched and not missed. */
  predicate Invariant(g: Game) {
    Ledger(g.play.score) && forall b :: b in g.play.balls ==> InPlay(b)
  }

  lemma InitialInvariant(c: Canvas, boxes: seq<Box>)
    ensures Invariant(Initial(c, boxes))
  {
    ZeroLedger();
  }

  /** Every handler keeps the invariant. */
  lemma HandleInvariant(g: Game, e: Event)
    requires Invariant(g)
    ensures Invariant(Handle(g, e))
  {
    match e
    case ConfigLoaded(_) =>
    case Press(x, y, nowMs) =>
      if !g.buttonVisible && g.started {
        var f := Field(g.play.balls, g.play.score);
        TapKeepsLedger(g.boxes, f, Vec(x, y));
        TapKeepsInPlay(g.boxes, f, Vec(x, y));
      }
    case Frame(nowMs, deltaMs) =>
      if g.started {
        var t := GameTime(g, nowMs);
        UpdateGameScore(g.canvas, g.boxes, g.play, t, deltaMs);
        UpdateGameKeepsInPlay(g.canvas, g.boxes, g.play, t, deltaMs);
      }
  }

  /** Every run of events keeps the invariant. */
  lemma {:induction false} RunInvariant(g: Game, events: seq<Event>)
    requires Invariant(g)
    ensures Invariant(Run(g, events))
    decreases |events|
  {
    if |events| > 0 {
      HandleInvariant(g, events[0]);
      RunInvariant(Handle(g, events[0]), events[1..]);
    }
  }

  /** From `setup` on, whatever happens: the points never drop below minus
      the misses nor rise above five per hit, and no ball in play is marked
      missed. */
  lemma Reachable(c: Canvas, boxes: seq<Box>, events: seq<Event>)
    ensures var g := Run(Initial(c, boxes), events);
      && -(g.play.score.misses as int) <= g.play.score.points
      && g.play.score.points <= 5 * (g.play.score.goodHits + g.play.score.perfectHits)
      && forall b :: b in g.play.balls ==> b.launched && !b.missed
  {
    InitialInvariant(c, boxes);
    RunInvariant(Initial(c, boxes), events);
    LedgerBounds(Run(Initial(c, boxes), events).play.score);
  }

  /** Presses and frames never show the button while the game runs; a
      configuration arriving keeps that so exactly when the game has not
      started. */
  lemma ButtonHiddenWhileRunning(g: Game, e: Event)
    requires !(g.started && g.buttonVisible)
    ensures !e.ConfigLoaded? ==> !(Handle(g, e).started && Handle(g, e).buttonVisible)
    ensures e.ConfigLoaded? ==> (!(Handle(g, e).started && Handle(g, e).buttonVisible) <==> !g.started)
  {
  }
}

=== FILE: song_data.dfy ===
/** `analyzeMp3` without its I/O: the decoded buffer goes through the beat
    detector, the tempo estimate, the pitch extractor and the note
    synthesizer, and the results are gathered into the song-data record the
    game loads. Also the rewrite of the MP3 path into the JSON path. */
module SongData {
  import opened Wrappers
  import opened Framing
  import opened Records
  import opened BeatDetector
  import opened Tempo
  import opened PitchExtractor
  import opened NoteSynthesizer

  /** Seconds of lead-in the chart asks for before the song starts. */
  const SongStartTime: real := 2.0

  /** Seconds the chart asks the game to wait before launching balls. */
  const BallLaunchDelay: real := 2.0

  /** A decoded audio buffer: the first channel, its rate and its length. */
  datatype Audio = Audio(samples: seq<real>, sampleRate: nat, duration: real)

  /** The song-data record (without the tag metadata). */
  datatype Song = Song(duration: real, bpm: int, songStartTime: real, ballLaunchDelay: real, notes: seq<Note>)

  /** The tempo `detectBeatsAndBPM` reports for a buffer. */
  function DetectedBpm(samples: seq<real>, sampleRate: nat, duration: real): int
    requires sampleRate >= 4
  {
    var beats := DetectBeats(samples, sampleRate);
    DetectedBeatsSpaced(samples, sampleRate);
    assert |beats| >= 2 ==> beats[|beats| - 1].time - beats[0].time > MinBeatGap;
    CalculateBpm(beats, duration)
  }

  /** The analysis pipeline; `detect` is the YIN estimator and `midiOf` is
      `frequencyToMidiNote`. */
  function Analyze(audio: Audio, detect: PitchOracle, midiOf: real -> int): (r: Result<Song, NoteError>)
    requires audio.sampleRate >= 20
    ensures var beats := DetectBeats(audio.samples, audio.sampleRate);
      && (r.Failure? <==> |beats| > 0 && DetectPitches(audio.samples, audio.sampleRate, detect) == [])
      && (r.Success? ==>
            && r.value.duration == audio.duration
            && r.value.bpm == DetectedBpm(audio.samples, audio.sampleRate, audio.duration)
            && r.value.songStartTime == 2.0
            && r.value.ballLaunchDelay == 2.0
            && |r.value.notes| == |beats|)
  {
    var beats := DetectBeats(audio.samples, audio.sampleRate);
    var bpm := DetectedBpm(audio.samples, audio.sampleRate, audio.duration);
    var pitches := DetectPitches(audio.samples, audio.sampleRate, detect);
    match GenerateNotes(beats, pitches, bpm, midiOf)
    case Failure(e) => Failure(e)
    case Success(notes) => Success(Song(audio.duration, bpm, SongStartTime, BallLaunchDelay, notes))
  }

  /** A tempo estimate from spaced beats is never negative. */
  lemma DetectedTempoNonNegative(samples: seq<real>, sampleRate: nat, duration: real)
    requires sampleRate >= 4
    ensures DetectedBpm(samples, sampleRate, duration) >= 0
  {
    var beats := DetectBeats(samples, sampleRate);
    DetectedBeatsSpaced(samples, sampleRate);
    MinBeatGapValue();
    NonNegativeTempo(beats, duration);
  }

  /** On success the chart's notes are the synthesizer's notes for the
      detected beats and pitches at the detected tempo. */
  lemma AnalyzedNotes(audio: Audio, detect: PitchOracle, midiOf: real -> int)
    requires audio.sampleRate >= 20
    requires Analyze(audio, detect, midiOf).Success?
    ensures var beats := DetectBeats(audio.samples, audio.sampleRate);
      var r := GenerateNotes(beats, DetectPitches(audio.samples, audio.sampleRate, detect),
                             DetectedBpm(audio.samples, audio.sampleRate, audio.duration), midiOf);
      && r.Success?
      && Analyze(audio, detect, midiOf).value.notes == r.value
      && DetectedBpm(audio.samples, audio.sampleRate, audio.duration) >= 0
  {
    DetectedTempoNonNegative(audio.samples, audio.sampleRate, audio.duration);
  }

  /** The notes of a successful chart start on windows of positive energy,
      in increasing order more than 0.3 s apart. */
  lemma ChartOnBeats(audio: Audio, detect: PitchOracle, midiOf: real -> int)
    requires audio.sampleRate >= 20
    requires Analyze(audio, detect, midiOf).Success?
    ensures var notes := Analyze(audio, detect, midiOf).value.notes;
      && (forall i :: 0 <= i < |notes| ==> OnBeatGrid(audio.samples, audio.sampleRate, notes[i].startTime))
      && (forall i, k :: 0 <= i < k < |notes| ==> notes[k].startTime - notes[i].startTime > MinBeatGap)
  {
    var beats := DetectBeats(audio.samples, audio.sampleRate);
    var pitches := DetectPitches(audio.samples, audio.sampleRate, detect);
    var bpm := DetectedBpm(audio.samples, audio.sampleRate, audio.duration);
    var notes := Analyze(audio, detect, midiOf).value.notes;
    AnalyzedNotes(audio, detect, midiOf);
    NotesStartOnBeats(beats, pitches, bpm, midiOf);
    DetectedBeatsWellFormed(audio.samples, audio.sampleRate);
    forall i | 0 <= i < |notes|
      ensures OnBeatGrid(audio.samples, audio.sampleRate, notes[i].startTime)
    {
      assert notes[i].startTime == beats[i].time;
    }
    forall i, k | 0 <= i < k < |notes|
      ensures notes[k].startTime - notes[i].startTime > MinBeatGap
    {
      assert notes[i].startTime == beats[i].time && notes[k].startTime == beats[k].time;
    }
  }

  /** The notes of a successful chart last a positive time (where they
      end) and abut. */
  lemma ChartNotesAbut(audio: Audio, detect: PitchOracle, midiOf: real -> int)
    requires audio.sampleRate >= 20
    requires Analyze(audio, detect, midiOf).Success?
    ensures var notes := Analyze(audio, detect, midiOf).value.notes;
      && (forall i :: 0 <= i < |notes| && notes[i].duration.Some? ==> notes[i].duration.value > 0.0)
      && (forall i :: 0 <= i < |notes| - 1 ==> notes[i].endTime == Some(notes[i + 1].startTime))
  {
    var beats := DetectBeats(audio.samples, audio.sampleRate);
    var pitches := DetectPitches(audio.samples, audio.sampleRate, detect);
    var bpm := DetectedBpm(audio.samples, audio.sampleRate, audio.duration);
    var notes := Analyze(audio, detect, midiOf).value.notes;
    AnalyzedNotes(audio, detect, midiOf);
    if |beats| > 0 {
      DetectedBeatsSpaced(audio.samples, audio.sampleRate);
      MinBeatGapValue();
      forall i | 0 <= i < |beats| - 1
        ensures beats[i].time < beats[i + 1].time
      {
        assert beats[i + 1].time - beats[i].time > MinBeatGap;
      }
      NotesOrdered(beats, pitches, bpm, midiOf);
      NotesAbut(beats, pitches, bpm, midiOf);
    }
  }

  /** The detected tempo is 0 exactly when fewer than two beats are found
      or their mean interval exceeds two minutes. */
  lemma DetectedTempoZero(samples: seq<real>, sampleRate: nat, duration: real)
    requires sampleRate >= 4
    ensures var beats := DetectBeats(samples, sampleRate);
      DetectedBpm(samples, sampleRate, duration) == 0 <==>
        |beats| < 2 || beats[|beats| - 1].time - beats[0].time > 120.0 * (|beats| - 1) as real
  {
    var beats := DetectBeats(samples, sampleRate);
    if |beats| >= 2 {
      DetectedBeatsSpaced(samples, sampleRate);
      MinBeatGapValue();
      assert beats[|beats| - 1].time - beats[0].time > MinBeatGap;
      ZeroTempoIffSlow(beats, duration);
    }
  }

  /** With beats and pitch estimates the chart is written, and its last note
      has no end (the source's `Infinity`, `null` in the file) exactly when
      the detected tempo is 0. */
  lemma OpenEndedChart(audio: Audio, detect: PitchOracle, midiOf: real -> int)
    requires audio.sampleRate >= 20
    requires |DetectBeats(audio.samples, audio.sampleRate)| > 0
    requires DetectPitches(audio.samples, audio.sampleRate, detect) != []
    ensures var r := Analyze(audio, detect, midiOf);
      && r.Success?
      && |r.value.notes| > 0
      && (r.value.notes[|r.value.notes| - 1].endTime.None? <==> r.value.bpm == 0)
  {
    var beats := DetectBeats(audio.samples, audio.sampleRate);
    var pitches := DetectPitches(audio.samples, audio.sampleRate, detect);
    var bpm := DetectedBpm(audio.samples, audio.sampleRate, audio.duration);
    OpenEndExactlyAtZeroTempo(beats, pitches, bpm, midiOf);
  }

  /** A song in which exactly one beat is found has tempo 0, so its only
      note has neither end nor duration. */
  lemma SingleBeatSongHasOpenEnd(audio: Audio, detect: PitchOracle, midiOf: real -> int)
    requires audio.sampleRate >= 20
    requires |DetectBeats(audio.samples, audio.sampleRate)| == 1
    requires DetectPitches(audio.samples, audio.sampleRate, detect) != []
    ensures var r := Analyze(audio, detect, midiOf);
      && r.Success? && r.value.bpm == 0 && |r.value.notes| == 1
      && r.value.notes[0].endTime.None? && r.value.notes[0].duration.None?
  {
  }

  /** Every window of a silent buffer has zero energy. */
  lemma SilentWindow(samples: seq<real>, sampleRate: nat, j: nat)
    requires sampleRate >= 4
    requires forall i :: 0 <= i < |samples| ==> samples[i] == 0.0
    ensures WindowEnergy(samples, sampleRate, j) == 0.0
  {
    var bs := BufferSize(sampleRate);
    if j * bs < |samples| {
      var f := Frame(samples, j * bs, bs);
      assert forall i :: 0 <= i < |f| ==> f[i] == samples[j * bs + i];
    }
  }

  /** A silent buffer has no beats, hence an empty chart at tempo 0. */
  lemma SilentSongHasEmptyChart(audio: Audio, detect: PitchOracle, midiOf: real -> int)
    requires audio.sampleRate >= 20
    requires forall i :: 0 <= i < |audio.samples| ==> audio.samples[i] == 0.0
    ensures Analyze(audio, detect, midiOf) == Success(Song(audio.duration, 0, 2.0, 2.0, []))
  {
    var beats := DetectBeats(audio.samples, audio.sampleRate);
    DetectedBeatsWellFormed(audio.samples, audio.sampleRate);
    if |beats| > 0 {
      assert OnBeatGrid(audio.samples, audio.sampleRate, beats[0].time);
      var j: nat :| BeatWindow(audio.samples, audio.sampleRate, j) && beats[0].time == WindowTime(audio.sampleRate, j);
      SilentWindow(audio.samples, audio.sampleRate, j);
    }
  }

  /** `pat` occurs in `s` at position `i`. */
  predicate MatchesAt(s: string, pat: string, i: nat) {
    i + |pat| <= |s| && s[i..i + |pat|] == pat
  }

  /** The first occurrence of `pat` in `s` at or after `from`. */
  function IndexOfFrom(s: string, pat: string, from: nat): (r: Option<nat>)
    ensures r.Some? ==> from <= r.value && MatchesAt(s, pat, r.value)
    ensures r.Some? ==> forall k :: from <= k < r.value ==> !MatchesAt(s, pat, k)
    ensures r.None? ==> forall k :: from <= k ==> !MatchesAt(s, pat, k)
    decreases |s| - from
  {
    if from + |pat| > |s| then None
    else if s[from..from + |pat|] == pat then Some(from)
    else IndexOfFrom(s, pat, from + 1)
  }

  /** `String.prototype.indexOf`. */
  function IndexOf(s: string, pat: string): Option<nat> {
    IndexOfFrom(s, pat, 0)
  }

  /** `String.prototype.replace` with a string pattern: only the first
      occurrence is replaced. */
  function ReplaceFirst(s: string, pat: string, rep: string): (r: string)
    ensures IndexOf(s, pat).None? ==> r == s
    ensures IndexOf(s, pat).Some? ==>
      var i := IndexOf(s, pat).value;
      && |r| == |s| - |pat| + |rep|
      && r[..i] == s[..i]
      && r[i..i + |rep|] == rep
      && r[i + |rep|..] == s[i + |pat|..]
  {
    match IndexOf(s, pat)
    case None => s
    case Some(i) => s[..i] + rep + s[i + |pat|..]
  }

  /** Replacing the first occurrence and putting the pattern back restores
      the string, provided the replacement occurs no earlier than there. */
  lemma ReplaceFirstUndo(s: string, pat: string, rep: string)
    requires IndexOf(s, pat).Some?
    requires IndexOf(ReplaceFirst(s, pat, rep), rep) == IndexOf(s, pat)
    ensures ReplaceFirst(ReplaceFirst(s, pat, rep), rep, pat) == s
  {
    var i := IndexOf(s, pat).value;
    var r := ReplaceFirst(s, pat, rep);
    assert r[i + |rep|..] == s[i + |pat|..];
    assert s == s[..i] + pat + s[i + |pat|..];
  }

  /** The song-data path: `.mp3` becomes `.json`, then the first `mp3`
      becomes `songdata`. */
  function JsonPathFor(mp3Path: string): string {
    ReplaceFirst(ReplaceFirst(mp3Path, ".mp3", ".json"), "mp3", "songdata")
  }

  /** A match at `i` with none before it is the first occurrence. */
  lemma IndexOfIs(s: string, pat: string, i: nat)
    requires MatchesAt(s, pat, i)
    requires forall k :: 0 <= k < i ==> !MatchesAt(s, pat, k)
    ensures IndexOf(s, pat) == Some(i)
  {
  }

  /** A position whose character differs from the pattern's first is not a
      match. */
  lemma FirstCharMismatch(s: string, pat: string, i: nat)
    requires |pat| > 0 && i < |s| && s[i] != pat[0]
    ensures !MatchesAt(s, pat, i)
  {
  }

  /** The first occurrence of `pat` in `s` is at `i`, when `i` is the first
      position holding the pattern's first character and the pattern is
      there. */
  lemma IndexOfByFirstChar(s: string, pat: string, i: nat)
    requires |pat| > 0 && MatchesAt(s, pat, i)
    requires forall k :: 0 <= k < i ==> s[k] != pat[0]
    ensures IndexOf(s, pat) == Some(i)
  {
    forall k | 0 <= k < i ensures !MatchesAt(s, pat, k) {
      FirstCharMismatch(s, pat, k);
    }
    IndexOfIs(s, pat, i);
  }

  /** Splicing: in `a + pat + b`, where `a` holds no copy of the pattern's
      first character, the first occurrence is the one right after `a`. */
  lemma SpliceFirst(a: string, pat: string, b: string, rep: string)
    requires |pat| > 0 && pat[0] !in a
    ensures ReplaceFirst(a + pat + b, pat, rep) == a + rep + b
  {
    var s := a + pat + b;
    assert s[|a|..|a| + |pat|] == pat;
    forall k | 0 <= k < |a| ensures s[k] != pat[0] {
      assert s[k] == a[k];
    }
    IndexOfByFirstChar(s, pat, |a|);
    assert s[..|a|] == a;
    assert s[|a| + |pat|..] == b;
  }

  lemma ReplaceExtension()
    ensures ReplaceFirst("public/mp3/go.mp3", ".mp3", ".json") == "public/mp3/go.json"
  {
    var a := "public/mp3/go";
    assert a + ".mp3" + "" == "public/mp3/go.mp3";
    assert a + ".json" + "" == "public/mp3/go.json";
    SpliceFirst(a, ".mp3", "", ".json");
  }

  lemma ReplaceDirectory()
    ensures ReplaceFirst("public/mp3/go.json", "mp3", "songdata") == "public/songdata/go.json"
  {
    var a, b := "public/", "/go.json";
    assert a + "mp3" + b == "public/mp3/go.json";
    assert a + "songdata" + b == "public/songdata/go.json";
    SpliceFirst(a, "mp3", b, "songdata");
  }

  /** The intended case: the file in `public/mp3` maps to `public/songdata`. */
  lemma JsonPathExample()
    ensures JsonPathFor("public/mp3/go.mp3") == "public/songdata/go.json"
  {
    ReplaceExtension();
    ReplaceDirectory();
  }

  /** The second replacement hits the first `mp3` anywhere in the path, so
      when the first path component starts with `mp3` (as in
      `mp3x/public/mp3/go.mp3`) that component is renamed instead of the
      `mp3` directory. */
  lemma JsonPathRenamesFirstMp3(dir: string)
    requires '.' !in dir
    ensures JsonPathFor("mp3" + dir + ".mp3") == "songdata" + dir + ".json"
  {
    var a := "mp3" + dir;
    assert '.' !in a by {
      forall k | 0 <= k < |a| ensures a[k] != '.' {
        if k >= 3 {
          assert a[k] == dir[k - 3];
        }
      }
    }
    SpliceFirst(a, ".mp3", "", ".json");
    assert a + ".mp3" + "" == "mp3" + dir + ".mp3";
    assert a + ".json" + "" == "" + "mp3" + (dir + ".json");
    SpliceFirst("", "mp3", dir + ".json", "songdata");
    assert "" + "songdata" + (dir + ".json") == "songdata" + dir + ".json";
  }
}

=== FILE: tempo.dfy ===
/** The tempo estimate `calculateBPM`. */
module Tempo {
  import opened Numeric
  import opened Sequences
  import opened Records

  /** The sum of consecutive differences telescopes to last minus first. */
  lemma {:induction false} TelescopingSum(s: seq<real>)
    requires |s| > 0
    ensures Sum(Differences(s)) == s[|s| - 1] - s[0]
    decreases |s|
  {
    if |s| > 1 {
      var init := s[..|s| - 1];
      TelescopingSum(init);
      var d := Differences(s);
      assert d[..|d| - 1] == Differences(init);
    }
  }

  /** `round(60 / mean interval)`, or 0 for fewer than two beats. `duration`
      is accepted and ignored, as in the source. The mean interval
      telescopes, so the estimate only depends on the first and last beat. */
  function CalculateBpm(beats: seq<Beat>, duration: real): (bpm: int)
    requires |beats| >= 2 ==> beats[|beats| - 1].time != beats[0].time
    ensures |beats| < 2 ==> bpm == 0
    ensures |beats| >= 2 ==>
      bpm == Round(60.0 * (|beats| - 1) as real / (beats[|beats| - 1].time - beats[0].time))
  {
    if |beats| < 2 then 0
    else
      var times := Times(beats);
      var intervals := Differences(times);
      var average := Sum(intervals) / |intervals| as real;
      TelescopingSum(times);
      DivByQuotient(60.0, Sum(intervals), |intervals| as real);
      Round(60.0 / average)
  }

  /** Beats half a second apart give 120 BPM. */
  lemma HalfSecondBeatsGive120()
    ensures CalculateBpm([Beat(0.0), Beat(0.5), Beat(1.0), Beat(1.5)], 2.0) == 120
  {
    assert 60.0 * 3.0 / 1.5 == 120.0;
    assert Round(120.0) == 120;
  }

  /** Beats that end after they start never give a negative tempo. */
  lemma NonNegativeTempo(beats: seq<Beat>, duration: real)
    requires |beats| >= 2 ==> beats[|beats| - 1].time - beats[0].time > 0.0
    ensures CalculateBpm(beats, duration) >= 0
  {
    if |beats| >= 2 {
      var span := beats[|beats| - 1].time - beats[0].time;
      DivAtLeast(60.0 * (|beats| - 1) as real, span, 0.0);
    }
  }

  /** Strictly increasing beats give a positive tempo as long as the mean
      interval is at most two minutes. */
  lemma PositiveTempo(beats: seq<Beat>)
    requires |beats| >= 2
    requires 0.0 < beats[|beats| - 1].time - beats[0].time <= 120.0 * (|beats| - 1) as real
    ensures CalculateBpm(beats, 0.0) > 0
  {
    var span := beats[|beats| - 1].time - beats[0].time;
    var n := (|beats| - 1) as real;
    DivAtLeast(60.0 * n, span, 0.5);
  }

  /** Increasing beats whose mean interval exceeds two minutes give a tempo
      of 0: `60 / mean` is then below one half, which `Math.round` takes
      to 0. */
  lemma ZeroTempoWhenSlow(beats: seq<Beat>)
    requires |beats| >= 2
    requires beats[|beats| - 1].time - beats[0].time > 120.0 * (|beats| - 1) as real
    ensures CalculateBpm(beats, 0.0) == 0
  {
    var span := beats[|beats| - 1].time - beats[0].time;
    var n := (|beats| - 1) as real;
    DivAtLeast(60.0 * n, span, 0.0);
    DivBelow(60.0 * n, span, 0.5);
  }

  /** For beats that end after they start, the tempo is 0 exactly when the
      mean interval exceeds two minutes, whatever the duration. */
  lemma ZeroTempoIffSlow(beats: seq<Beat>, duration: real)
    requires |beats| >= 2 && beats[|beats| - 1].time - beats[0].time > 0.0
    ensures CalculateBpm(beats, duration) == 0 <==>
      beats[|beats| - 1].time - beats[0].time > 120.0 * (|beats| - 1) as real
  {
    if beats[|beats| - 1].time - beats[0].time > 120.0 * (|beats| - 1) as real {
      ZeroTempoWhenSlow(beats);
    } else {
      PositiveTempo(beats);
    }
  }
}

=== FILE: timing.dfy ===
/** `updateGame` for one frame: notes whose launch time has come are popped
    off the chart and become balls aimed at their box, every ball is
    updated, balls that left the screen unhit are penalised once, and all
    off-screen balls are dropped. */
module Timing {
  import opened Wrappers
  import opened Records
  import opened Sequences
  import opened Entities
  import opened Scoring

  /** `boxes.find(box => box.note === noteData.note)`: the first box named
      after the note, if any (an `undefined` note name matches no box). */
  function FindBox(boxes: seq<Box>, name: Option<string>): (r: Option<nat>)
    ensures r.Some? ==> r.value < |boxes| && name == Some(boxes[r.value].note)
    ensures r.Some? ==> forall k :: 0 <= k < r.value ==> name != Some(boxes[k].note)
    ensures r.None? ==> forall k :: 0 <= k < |boxes| ==> name != Some(boxes[k].note)
    decreases |boxes|
  {
    if |boxes| == 0 then None
    else if name == Some(boxes[0].note) then Some(0)
    else match FindBox(boxes[1..], name)
      case None => None
      case Some(k) => Some(k + 1)
  }

  /** The balls one popped note adds: one aimed at the centre of its box, or
      none when no box carries its name. */
  function SpawnFor(c: Canvas, boxes: seq<Box>, n: Note): (r: seq<Ball>)
    ensures |r| <= 1
    ensures |r| == 1 <==> FindBox(boxes, n.note).Some?
  {
    match FindBox(boxes, n.note)
    case None => []
    case Some(k) => [NewBall(c, boxes[k].note, n.startTime, n.endTime, Center(boxes[k]))]
  }

  /** The balls a run of popped notes adds, in order. */
  function SpawnAll(c: Canvas, boxes: seq<Box>, notes: seq<Note>): (r: seq<Ball>)
    ensures |r| <= |notes|
    decreases |notes|
  {
    if |notes| == 0 then [] else SpawnFor(c, boxes, notes[0]) + SpawnAll(c, boxes, notes[1..])
  }

  /** A note is due once the clock is within the travel time of its start. */
  predicate Due(n: Note, currentTime: real) {
    currentTime >= n.startTime - TravelTime
  }

  /** The chart left after the launch loop and the balls it added. */
  datatype Launched = Launched(queue: seq<Note>, spawned: seq<Ball>)

  /** The launch loop: pop the head of the chart while it is due. */
  function Launch(c: Canvas, boxes: seq<Box>, queue: seq<Note>, currentTime: real): (r: Launched)
    ensures |r.queue| <= |queue| && r.queue == queue[|queue| - |r.queue|..]
    ensures forall i :: 0 <= i < |queue| - |r.queue| ==> Due(queue[i], currentTime)
    ensures |r.queue| == 0 || !Due(r.queue[0], currentTime)
    ensures r.spawned == SpawnAll(c, boxes, queue[..|queue| - |r.queue|])
    decreases |queue|
  {
    if |queue| > 0 && Due(queue[0], currentTime) then
      var rest := Launch(c, boxes, queue[1..], currentTime);
      var popped := queue[..|queue| - |rest.queue|];
      assert popped[0] == queue[0] && popped[1..] == queue[1..][..|queue| - 1 - |rest.queue|];
      Launched(rest.queue, SpawnFor(c, boxes, queue[0]) + rest.spawned)
    else
      assert queue[..0] == [];
      Launched(queue, [])
  }

  /** On a chart in start-time order the launch loop pops exactly the due
      notes. */
  lemma LaunchPopsExactlyDue(c: Canvas, boxes: seq<Box>, queue: seq<Note>, currentTime: real)
    requires forall a, b :: 0 <= a < b < |queue| ==> queue[a].startTime <= queue[b].startTime
    ensures var popped := |queue| - |Launch(c, boxes, queue, currentTime).queue|;
      forall i :: 0 <= i < |queue| ==> (i < popped <==> Due(queue[i], currentTime))
  {
    var r := Launch(c, boxes, queue, currentTime);
    var popped := |queue| - |r.queue|;
    forall i | popped <= i < |queue|
      ensures !Due(queue[i], currentTime)
    {
      assert r.queue[0] == queue[popped];
    }
  }

  /** When every popped note has a box, each becomes one ball, in order,
      carrying the note's name and times, unlaunched at the centre and aimed
      at its box. */
  lemma {:induction false} SpawnAllOnePerNote(c: Canvas, boxes: seq<Box>, notes: seq<Note>)
    requires forall i :: 0 <= i < |notes| ==> FindBox(boxes, notes[i].note).Some?
    ensures var balls := SpawnAll(c, boxes, notes);
      && |balls| == |notes|
      && forall i :: 0 <= i < |notes| ==>
           && Some(balls[i].note) == notes[i].note
           && balls[i].startTime == notes[i].startTime && balls[i].endTime == notes[i].endTime
           && balls[i].pos == CanvasCenter(c)
           && balls[i].target == Center(boxes[FindBox(boxes, notes[i].note).value])
           && !balls[i].launched && !balls[i].hit && !balls[i].missed
    decreases |notes|
  {
    if |notes| > 0 {
      SpawnAllOnePerNote(c, boxes, notes[1..]);
      var balls := SpawnAll(c, boxes, notes);
      forall i | 0 < i < |notes| ensures balls[i] == SpawnAll(c, boxes, notes[1..])[i - 1] {
      }
    }
  }

  /** Every spawned ball is fresh: unlaunched, unhit, not missed. */
  lemma {:induction false} SpawnedFresh(c: Canvas, boxes: seq<Box>, notes: seq<Note>)
    ensures forall b :: b in SpawnAll(c, boxes, notes) ==> !b.launched && !b.hit && !b.missed
    decreases |notes|
  {
    if |notes| > 0 {
      SpawnedFresh(c, boxes, notes[1..]);
    }
  }

  /** The updated ball leaves the screen unhit and not yet missed. */
  predicate NewlyMissed(b: Ball, c: Canvas) {
    OffScreen(b, c) && !b.hit && !b.missed
  }

  /** The miss check of the update loop. */
  function Judge(b: Ball, c: Canvas): (r: Ball)
    ensures r.missed <==> b.missed || NewlyMissed(b, c)
    ensures r == b.(missed := r.missed)
  {
    if NewlyMissed(b, c) then b.(missed := true) else b
  }

  /** The number of balls the update loop penalises. */
  function NewMisses(balls: seq<Ball>, c: Canvas, currentTime: real, deltaMs: real): nat
    decreases |balls|
  {
    if |balls| == 0 then 0
    else (if NewlyMissed(UpdateBall(balls[0], currentTime, deltaMs), c) then 1 else 0)
         + NewMisses(balls[1..], c, currentTime, deltaMs)
  }

  /** The balls and the counters. */
  datatype Field = Field(balls: seq<Ball>, score: Score)

  /** The update loop: each ball is updated, then penalised if it newly left
      the screen unhit. */
  function UpdateBalls(balls: seq<Ball>, c: Canvas, currentTime: real, deltaMs: real, s: Score): (r: Field)
    ensures |r.balls| == |balls|
    ensures forall i :: 0 <= i < |balls| ==> r.balls[i] == Judge(UpdateBall(balls[i], currentTime, deltaMs), c)
    ensures r.score == MissTimes(s, NewMisses(balls, c, currentTime, deltaMs))
    decreases |balls|
  {
    if |balls| == 0 then Field([], s)
    else
      var b := UpdateBall(balls[0], currentTime, deltaMs);
      var s1 := if NewlyMissed(b, c) then Miss(s) else s;
      var rest := UpdateBalls(balls[1..], c, currentTime, deltaMs, s1);
      assert forall i :: 1 <= i < |balls| ==> balls[i] == balls[1..][i - 1];
      Field([Judge(b, c)] + rest.balls, rest.score)
  }

  /** `balls.filter(ball => !ball.isOffScreen())`. */
  function RemoveOffScreen(balls: seq<Ball>, c: Canvas): (r: seq<Ball>)
    ensures IsSubsequence(r, balls)
    ensures forall b :: b in r <==> b in balls && !OffScreen(b, c)
    decreases |balls|
  {
    if |balls| == 0 then []
    else
      var rest := RemoveOffScreen(balls[1..], c);
      assert forall b :: b in balls <==> b == balls[0] || b in balls[1..];
      if OffScreen(balls[0], c) then rest else [balls[0]] + rest
  }

  /** The part of the game `updateGame` changes. */
  datatype Play = Play(queue: seq<Note>, balls: seq<Ball>, score: Score)

  /** `updateGame` at `currentTime` seconds after the start, `deltaMs`
      milliseconds after the previous frame. */
  function UpdateGame(c: Canvas, boxes: seq<Box>, p: Play, currentTime: real, deltaMs: real): Play {
    var launched := Launch(c, boxes, p.queue, currentTime);
    var field := UpdateBalls(p.balls + launched.spawned, c, currentTime, deltaMs, p.score);
    Play(launched.queue, RemoveOffScreen(field.balls, c), field.score)
  }

  /** A frame costs one point and one miss per ball that newly left the
      screen unhit, and nothing else. */
  lemma UpdateGameScore(c: Canvas, boxes: seq<Box>, p: Play, currentTime: real, deltaMs: real)
    ensures var n := NewMisses(p.balls + Launch(c, boxes, p.queue, currentTime).spawned, c, currentTime, deltaMs);
      var s := UpdateGame(c, boxes, p, currentTime, deltaMs).score;
      && s.points == p.score.points - n && s.misses == p.score.misses + n
      && s.goodHits == p.score.goodHits && s.perfectHits == p.score.perfectHits
      && (Ledger(p.score) ==> Ledger(s))
  {
    var n := NewMisses(p.balls + Launch(c, boxes, p.queue, currentTime).spawned, c, currentTime, deltaMs);
    MissTimesEffect(p.score, n);
  }

  /** Balls that are hit cost nothing when they leave the screen. */
  lemma {:induction false} HitBallsNeverMissed(balls: seq<Ball>, c: Canvas, currentTime: real, deltaMs: real)
    requires forall i :: 0 <= i < |balls| ==> balls[i].hit
    ensures NewMisses(balls, c, currentTime, deltaMs) == 0
    decreases |balls|
  {
    if |balls| > 0 {
      HitBallsNeverMissed(balls[1..], c, currentTime, deltaMs);
    }
  }

  /** What holds of every ball in play between frames: it has been launched
      and has not been missed (a missed ball is off-screen and is dropped in
      the same frame). */
  predicate InPlay(b: Ball) {
    b.launched && !b.missed
  }

  /** A ball that is launched or due and not yet missed is in play after
      its update and miss check, unless it is off-screen. */
  lemma JudgedInPlay(b: Ball, c: Canvas, currentTime: real, deltaMs: real)
    requires Ready(b, currentTime)
    ensures var r := Judge(UpdateBall(b, currentTime, deltaMs), c);
      !OffScreen(r, c) ==> InPlay(r)
  {
  }

  /** A ball the update loop will launch, if it is not already, and that
      has not been missed. */
  predicate Ready(b: Ball, currentTime: real) {
    (b.launched || currentTime >= b.startTime - TravelTime) && !b.missed
  }

  /** The update loop leaves every ready ball in play or off-screen. */
  lemma UpdateBallsKeepsReady(balls: seq<Ball>, c: Canvas, currentTime: real, deltaMs: real, s: Score)
    requires forall i :: 0 <= i < |balls| ==> Ready(balls[i], currentTime)
    ensures forall b :: b in UpdateBalls(balls, c, currentTime, deltaMs, s).balls && !OffScreen(b, c) ==> InPlay(b)
  {
    var r := UpdateBalls(balls, c, currentTime, deltaMs, s);
    forall i | 0 <= i < |balls|
      ensures !OffScreen(r.balls[i], c) ==> InPlay(r.balls[i])
    {
      JudgedInPlay(balls[i], c, currentTime, deltaMs);
    }
  }

  /** The balls in play followed by balls ready for this frame are all
      ready for it. */
  lemma AllReady(balls: seq<Ball>, spawned: seq<Ball>, all: seq<Ball>, currentTime: real)
    requires forall b :: b in balls ==> InPlay(b)
    requires forall k :: 0 <= k < |spawned| ==> Ready(spawned[k], currentTime)
    requires all == balls + spawned
    ensures forall i :: 0 <= i < |all| ==> Ready(all[i], currentTime)
  {
    forall i | 0 <= i < |all|
      ensures Ready(all[i], currentTime)
    {
      if i < |balls| {
        assert all[i] in balls;
      } else {
        assert all[i] == spawned[i - |balls|];
      }
    }
  }

  /** The balls spawned from due notes are ready for this frame. */
  lemma SpawnedReady(c: Canvas, boxes: seq<Box>, notes: seq<Note>, currentTime: real)
    requires forall i :: 0 <= i < |notes| ==> Due(notes[i], currentTime)
    ensures forall k :: 0 <= k < |SpawnAll(c, boxes, notes)| ==> Ready(SpawnAll(c, boxes, notes)[k], currentTime)
  {
    var spawned := SpawnAll(c, boxes, notes);
    SpawnedFresh(c, boxes, notes);
    forall k | 0 <= k < |spawned| ensures Ready(spawned[k], currentTime) {
      assert spawned[k] in spawned;
      SpawnedDue(c, boxes, notes, currentTime, k);
    }
  }

  lemma UpdateGameKeepsInPlay(c: Canvas, boxes: seq<Box>, p: Play, currentTime: real, deltaMs: real)
    requires forall b :: b in p.balls ==> InPlay(b)
    ensures forall b :: b in UpdateGame(c, boxes, p, currentTime, deltaMs).balls ==> InPlay(b)
  {
    var launched := Launch(c, boxes, p.queue, currentTime);
    var all := p.balls + launched.spawned;
    SpawnedReady(c, boxes, p.queue[..|p.queue| - |launched.queue|], currentTime);
    AllReady(p.balls, launched.spawned, all, currentTime);
    UpdateBallsKeepsReady(all, c, currentTime, deltaMs, p.score);
  }

  /** A ball spawned from due notes starts at or before the travel time
      from now, so the same frame's update launches it. */
  lemma {:induction false} SpawnedDue(c: Canvas, boxes: seq<Box>, notes: seq<Note>, currentTime: real, k: nat)
    requires forall i :: 0 <= i < |notes| ==> Due(notes[i], currentTime)
    requires k < |SpawnAll(c, boxes, notes)|
    ensures currentTime >= SpawnAll(c, boxes, notes)[k].startTime - TravelTime
    decreases |notes|
  {
    var head := SpawnFor(c, boxes, notes[0]);
    if k >= |head| {
      SpawnedDue(c, boxes, notes[1..], currentTime, k - |head|);
    }
  }
}

=== FILE: wrappers.dfy ===
/** Failure-compatible wrappers used across the model. */
module Wrappers {

  /** A value that may be absent: JavaScript's `undefined`/`null` results. */
  datatype Option<+T> = None | Some(value: T)

  /** The outcome of an operation that can fail with an error value. */
  datatype Result<+R, +E> = Success(value: R) | Failure(error: E)
}
